=== FILE: README.md ===
# PersonalTutorApp core, modelled in Dafny

PersonalTutorApp is an Android app (Kotlin, Jetpack Compose, Firebase) that puts tutors and
students together. Tutors publish courses and lessons, approve enrollment requests and
publish time slots. Students register (and wait for approval), request enrollment, track
lesson completion and book slots. This project models the app's business logic:

- the three repositories over Firestore: calendar, enrollments and users;
- the authentication view model;
- the screens whose handlers hold logic beyond layout: course list and detail, lesson list
  and detail, enrollment approval, dashboard, and the tutor's two calendar screens.

Each Firestore collection is a map from document id to record. Each operation is a pure
function from the store (and the screen state) to the new store and state. Everything remote
becomes a parameter:

- what the authentication service answered;
- whether a call threw, and with which (nullable) message;
- the id Firestore picks for a new document.

The modules follow the source files:

| module | models |
|---|---|
| `Wrappers` | `Option` and `Result` |
| `Lists` | Kotlin's `filter`, `count`, `firstOrNull` and list `minus` |
| `Text` | Kotlin's `isBlank`, `contains(ignoreCase)`, `substringAfterLast` and `substringBeforeLast` |
| `Models` | the records of `data/model` |
| `Views` | the loading, error, empty and list precedence the screens share |
| one module per source file | `CalendarRepository`, `EnrollmentRepository`, `UserRepository`, `AuthViewModel`, `AvailableSlotsScreen`, `MeetingScreen`, `CourseListScreen`, `CourseDetailScreen`, `LessonListScreen`, `LessonDetailScreen`, `EnrollApprovalScreen` and `DashboardScreen` |

Where the code does something a reader might not expect, the model follows it:

- Enrollment requests are not deduplicated (`EnrollmentRepository.CreateTwiceAddsTwo`).
- A status may be overwritten from any status, not only from pending
  (`EnrollApprovalScreen.DecisionsCanBeReversed`).
- A slot is added without checking that it starts before it ends
  (`MeetingScreen.AddSlotAcceptsAnyWindow`).
- Deleting a slot ignores whether it is booked (`MeetingScreen.DeleteIgnoresBooking`).
- Booking reads and then writes without a transaction. The sequential case is proved: a
  second booking of a window fails (`CalendarRepository.SecondBookingFails`).
- A role other than Student or Tutor is signed in by registering but refused at login
  (`AuthViewModel.OtherRoleSignedInOnlyAtRegistration`). The registration screen offers only
  those two roles, so this is a property of the view model alone.
- The dashboard labels its counts "已报名" (enrolled), but pending and rejected requests are
  counted too (`DashboardScreen.CountIgnoresStatus`).
- A tutor who owns no course, such as one who has just registered, makes the dashboard's
  enrollment query fail, and the dashboard does not catch it, so the app ends
  (`DashboardScreen.NoCourseEndsApp`). The approval screen shows the same error instead.
- Saving a lesson from its detail screen always stores it as not completed, with empty
  `content` (`LessonDetailScreen.BuildLesson`).
- The available-slots screen reads and writes `slot.available`, but the `TimeSlot` record in
  `data/model/TutorAvailability.kt` names the field `isAvailable`. One field, `available`,
  models both.
- The screens use `Course.category` and `Lesson.pages`/`completed`, which
  `data/model/Course.kt` and `data/model/Lesson.kt` do not declare. The model adds them as
  the screens use them. The `LessonPage` record is not part of this model's sources; it is
  modelled as `(text, imageUrl?)`, as the detail screen uses it.

## Model

| member | source | states |
|---|---|---|
| Models.NewSlot | app/src/main/java/uk/ac/soton/personal_tutor_app/ui/meeting/TutorMeetingScreen.kt:109 | A slot built from a start and an end keeps both, is available and has no student, as the `TimeSlot` defaults give. |
| Views.Present | app/src/main/java/uk/ac/soton/personal_tutor_app/ui/lesson/LessonListScreen.kt:78-94 | The screens' `when`: loading wins over an error, an error over an empty list, and only a non-empty list is shown; each state is stated in both directions. |
| Lists.CountWhere | app/src/main/java/uk/ac/soton/personal_tutor_app/ui/course/CourseDetailScreen.kt:70-71 | `count { p }` is at most the length, 0 exactly when nothing matches and the length exactly when everything does. |
| Lists.Filter | app/src/main/java/uk/ac/soton/personal_tutor_app/ui/tutor/EnrollApprovalScreen.kt:49 | `filter { p }` keeps exactly the elements that satisfy `p`, in their order (a subsequence), and as many as `CountWhere` says. |
| Lists.FirstWhere | app/src/main/java/uk/ac/soton/personal_tutor_app/ui/course/CourseDetailScreen.kt:62-66 | `firstOrNull { p }` is null exactly when nothing matches, and otherwise returns the first matching element. |
| Lists.IndexOf | app/src/main/java/uk/ac/soton/personal_tutor_app/ui/meeting/TutorMeetingScreen.kt:85 | The first index of an element, or -1 exactly when it is absent. |
| Lists.RemoveFirst | app/src/main/java/uk/ac/soton/personal_tutor_app/ui/meeting/TutorMeetingScreen.kt:85 | List `minus` an element drops only its first occurrence: one fewer element, the multiset minus one copy, the rest in order; an absent element leaves the list alone. |
| Text.LastIndexOf | app/src/main/java/uk/ac/soton/personal_tutor_app/ui/lesson/LessonDetailScreen.kt:133 | The last index of a character, or -1 exactly when it is absent; no later position holds it. |
| Text.SubstringAfterLast | app/src/main/java/uk/ac/soton/personal_tutor_app/ui/lesson/LessonDetailScreen.kt:133 | `substringAfterLast(c)` is the part after the last `c` (with no `c` in it), or the whole string when there is none. |
| Text.SubstringBeforeLast | app/src/main/java/uk/ac/soton/personal_tutor_app/ui/lesson/LessonDetailScreen.kt:133 | `substringBeforeLast(c)` is the part before the last `c`, or the whole string when there is none. |
| CalendarRepository.GetTutorAvailability | app/src/main/java/uk/ac/soton/personal_tutor_app/data/repository/CalendarRepository.kt:17-20 | Null exactly when the tutor has no availability document; otherwise that document, which belongs to the tutor. |
| CalendarRepository.CreateDefaultAvailability | app/src/main/java/uk/ac/soton/personal_tutor_app/data/repository/CalendarRepository.kt:23-30 | Stores and returns an empty availability for the tutor; no other tutor's document changes. |
| CalendarRepository.UpdateTimeSlots | app/src/main/java/uk/ac/soton/personal_tutor_app/data/repository/CalendarRepository.kt:33-37 | Replaces the tutor's slot list; a tutor without a document is a silent no-op; other tutors are untouched. |
| CalendarRepository.MarkBooked | app/src/main/java/uk/ac/soton/personal_tutor_app/data/repository/CalendarRepository.kt:53-59 | Every available slot in the requested window is given to the student and marked unavailable, every other slot is kept; the list is unchanged exactly when no slot was bookable. |
| CalendarRepository.BookTimeSlot | app/src/main/java/uk/ac/soton/personal_tutor_app/data/repository/CalendarRepository.kt:46-68 | Succeeds exactly when the tutor has a document holding an available slot in the window; a failure writes nothing; a success writes the marked list. |
| CalendarRepository.BookingKeepsLayout | app/src/main/java/uk/ac/soton/personal_tutor_app/data/repository/CalendarRepository.kt:53-59 | Booking keeps the length of the tutor's list and the window of every slot. |
| CalendarRepository.SecondBookingFails | app/src/main/java/uk/ac/soton/personal_tutor_app/data/repository/CalendarRepository.kt:61-64 | After S1 books a window, S2's booking of the same window fails and writes nothing, and the slots S1 took still record S1. |
| CalendarRepository.BookingKeepsWellKeyed | app/src/main/java/uk/ac/soton/personal_tutor_app/data/repository/CalendarRepository.kt:66 | A booking keeps every document filed under its own tutor. |
| AvailableSlotsScreen.Load | app/src/main/java/uk/ac/soton/personal_tutor_app/ui/meeting/TutorAvailableSlotsScreen.kt:29-38 | Loading ends; a thrown exception sets its message and keeps the list; a missing document shows an empty list. |
| AvailableSlotsScreen.View | app/src/main/java/uk/ac/soton/personal_tutor_app/ui/meeting/TutorAvailableSlotsScreen.kt:57-64 | Spinner while loading, then the error, else the list (there is no separate empty state). |
| AvailableSlotsScreen.MarkUnavailable | app/src/main/java/uk/ac/soton/personal_tutor_app/ui/meeting/TutorAvailableSlotsScreen.kt:88-94 | The local update marks every slot in the booked window unavailable and leaves the other slots alone. |
| AvailableSlotsScreen.OnBookClick | app/src/main/java/uk/ac/soton/personal_tutor_app/ui/meeting/TutorAvailableSlotsScreen.kt:78-103 | Nothing happens for an unavailable slot; a successful booking updates store and list; a false result sets the fixed message and an exception the prefixed one, writing nothing. |
| AvailableSlotsScreen.FailedBookingHidesList | app/src/main/java/uk/ac/soton/personal_tutor_app/ui/meeting/TutorAvailableSlotsScreen.kt:95-100 | After a failed booking the error replaces the whole list on screen. |
| AvailableSlotsScreen.LocalMirrorAgrees | app/src/main/java/uk/ac/soton/personal_tutor_app/ui/meeting/TutorAvailableSlotsScreen.kt:87-94 | When the screen shows the stored list, booking one of its available slots succeeds and the local and stored lists then agree on every window and availability. |
| MeetingScreen.Load | app/src/main/java/uk/ac/soton/personal_tutor_app/ui/meeting/TutorMeetingScreen.kt:32-42 | The existing availability, or a newly created empty one; an exception keeps the store and records its message. |
| MeetingScreen.AddSlot | app/src/main/java/uk/ac/soton/personal_tutor_app/ui/meeting/TutorMeetingScreen.kt:106-117 | Appends the new slot to the list and the store and closes the dialog; a thrown write keeps everything and the dialog open; no availability means an NPE that clears the error. |
| MeetingScreen.DeleteSlot | app/src/main/java/uk/ac/soton/personal_tutor_app/ui/meeting/TutorMeetingScreen.kt:82-91 | Removes the first slot equal to the clicked one from list and store; a thrown write keeps both and records the message. |
| MeetingScreen.DeleteIgnoresBooking | app/src/main/java/uk/ac/soton/personal_tutor_app/ui/meeting/TutorMeetingScreen.kt:85 | Deleting a listed slot removes exactly one copy of it, booked or not, keeping the others in order. |
| MeetingScreen.AddSlotAcceptsAnyWindow | app/src/main/java/uk/ac/soton/personal_tutor_app/ui/meeting/TutorMeetingScreen.kt:109-110 | A slot whose end is not after its start is added all the same. |
| MeetingScreen.LoadAgreesWithStore | app/src/main/java/uk/ac/soton/personal_tutor_app/ui/meeting/TutorMeetingScreen.kt:36-37 | After a load without error the screen holds exactly the tutor's stored document. |
| EnrollmentRepository.CreateEnrollment | app/src/main/java/uk/ac/soton/personal_tutor_app/data/repository/EnrollmentRepository.kt:17-20 | Adds one pending record with no completed lessons under a fresh id; existing records are kept. |
| EnrollmentRepository.UpdateStatus | app/src/main/java/uk/ac/soton/personal_tutor_app/data/repository/EnrollmentRepository.kt:65-67 | Fails exactly when the record is missing; otherwise sets its status, whatever it was, and nothing else. |
| EnrollmentRepository.ArrayUnion | app/src/main/java/uk/ac/soton/personal_tutor_app/data/repository/EnrollmentRepository.kt:82 | Firestore `arrayUnion`: the element is present afterwards, appended only when it was absent. |
| EnrollmentRepository.ArrayRemove | app/src/main/java/uk/ac/soton/personal_tutor_app/data/repository/EnrollmentRepository.kt:84 | Firestore `arrayRemove`: every copy of the element goes, the others stay in order. |
| EnrollmentRepository.MarkLessonComplete | app/src/main/java/uk/ac/soton/personal_tutor_app/data/repository/EnrollmentRepository.kt:75-86 | Fails exactly when the record is missing; otherwise the lesson is listed exactly when `completed`, other lessons and other fields are untouched. |
| EnrollmentRepository.MarkCompleteIdempotent | app/src/main/java/uk/ac/soton/personal_tutor_app/data/repository/EnrollmentRepository.kt:81-82 | Marking a lesson complete twice equals marking it once. |
| EnrollmentRepository.MarkThenUnmarkRestores | app/src/main/java/uk/ac/soton/personal_tutor_app/data/repository/EnrollmentRepository.kt:80-85 | Un-marking a lesson just marked, that was not complete before, restores the store. |
| EnrollmentRepository.CreateTwiceAddsTwo | app/src/main/java/uk/ac/soton/personal_tutor_app/data/repository/EnrollmentRepository.kt:17-20 | Two requests by one student for one course leave two records for the pair: there is no duplicate check. |
| EnrollmentRepository.ForStudent | app/src/main/java/uk/ac/soton/personal_tutor_app/data/repository/EnrollmentRepository.kt:52-62 | The student's query returns exactly that student's records, in snapshot order: an order-preserving selection of the snapshot holding all and only that student's records, as many as there are. |
| EnrollmentRepository.CourseIdsOf | app/src/main/java/uk/ac/soton/personal_tutor_app/data/repository/EnrollmentRepository.kt:25-31 | The ids of exactly the tutor's courses; empty exactly when the tutor owns none. |
| EnrollmentRepository.ForTutor | app/src/main/java/uk/ac/soton/personal_tutor_app/data/repository/EnrollmentRepository.kt:22-49 | An error exactly when the tutor owns no course (the `whereIn` with an empty list); otherwise exactly the records of the tutor's courses, in order: an order-preserving selection holding all and only those records, as many as there are. |
| UserRepository.CreateUserProfile | app/src/main/java/uk/ac/soton/personal_tutor_app/data/repository/UserRepository.kt:22-35 | An empty uid throws (the `document("")` reference is invalid) and nothing is written; otherwise writes the profile under the uid, approved exactly when the role is Tutor, never rejected, other users untouched. |
| UserRepository.GetUserProfile | app/src/main/java/uk/ac/soton/personal_tutor_app/data/repository/UserRepository.kt:38-42 | An empty uid throws the invalid-reference error; otherwise the stored profile, or the "UserProfile <uid> not found" error exactly when there is none. |
| UserRepository.PendingUsers | app/src/main/java/uk/ac/soton/personal_tutor_app/data/repository/UserRepository.kt:45-58 | Exactly the students neither approved nor rejected, in order: an order-preserving selection of the snapshot holding all and only those profiles, as many as there are. |
| UserRepository.AllTutors | app/src/main/java/uk/ac/soton/personal_tutor_app/data/repository/UserRepository.kt:79-92 | Exactly the approved, not rejected tutors, in order: an order-preserving selection of the snapshot holding all and only those profiles, as many as there are. |
| UserRepository.ApproveUser | app/src/main/java/uk/ac/soton/personal_tutor_app/data/repository/UserRepository.kt:61-65 | Fails exactly on a missing profile; otherwise sets `approved` only, and the user leaves the pending list. |
| UserRepository.RejectUser | app/src/main/java/uk/ac/soton/personal_tutor_app/data/repository/UserRepository.kt:68-72 | Fails exactly on a missing profile; otherwise sets `rejected` only, and the user is neither pending nor a listed tutor. |
| UserRepository.NewProfileListing | app/src/main/java/uk/ac/soton/personal_tutor_app/data/repository/UserRepository.kt:31-32 | A new profile (under a non-empty uid) is pending exactly when the role is Student, and a listed tutor exactly when the role is Tutor. |
| UserRepository.PendingAndTutorDisjoint | app/src/main/java/uk/ac/soton/personal_tutor_app/data/repository/UserRepository.kt:47-49 | No profile is both in the pending list and in the tutor list. |
| AuthViewModel.OnEmailChanged | app/src/main/java/uk/ac/soton/personal_tutor_app/viewmodel/AuthViewModel.kt:23 | Sets the email, clears the error, changes nothing else. |
| AuthViewModel.OnPasswordChanged | app/src/main/java/uk/ac/soton/personal_tutor_app/viewmodel/AuthViewModel.kt:24 | Sets the password, clears the error, changes nothing else. |
| AuthViewModel.OnRoleChanged | app/src/main/java/uk/ac/soton/personal_tutor_app/viewmodel/AuthViewModel.kt:25 | Sets the role, clears the error, changes nothing else. |
| AuthViewModel.Register | app/src/main/java/uk/ac/soton/personal_tutor_app/viewmodel/AuthViewModel.kt:28-65 | On success the profile is stored under the current user id ("" when null); a Student then waits signed out with the waiting message and any other role is signed in. An empty or null id makes the write throw uncaught, which ends the app: an error, with nothing recorded after it. On failure only the error and loading change. |
| AuthViewModel.Login | app/src/main/java/uk/ac/soton/personal_tutor_app/viewmodel/AuthViewModel.kt:68-95 | On success the role comes from the profile and the user is signed in exactly when a tutor or approved, with the waiting message exactly otherwise; a missing profile or an empty or null id makes the read throw uncaught: an error; a failure sets its message. |
| AuthViewModel.NullIdIsEmptyId | app/src/main/java/uk/ac/soton/personal_tutor_app/viewmodel/AuthViewModel.kt:39 | A null user id is read as "", so registration and login behave exactly as for an empty id: both throw the invalid-reference error. |
| AuthViewModel.Logout | app/src/main/java/uk/ac/soton/personal_tutor_app/viewmodel/AuthViewModel.kt:98-101 | Back to the initial state: signed out, empty form, Student role, no error. |
| AuthViewModel.LoginIgnoresRejected | app/src/main/java/uk/ac/soton/personal_tutor_app/viewmodel/AuthViewModel.kt:80 | The `rejected` flag never changes the outcome of a login. |
| AuthViewModel.StudentGatedUntilApproved | app/src/main/java/uk/ac/soton/personal_tutor_app/viewmodel/AuthViewModel.kt:46-53 | A registered student cannot sign in until approved, and can afterwards. |
| AuthViewModel.OtherRoleSignedInOnlyAtRegistration | app/src/main/java/uk/ac/soton/personal_tutor_app/viewmodel/AuthViewModel.kt:54-58 | A role other than Student and Tutor is signed in by registering but refused at its next login. The registration screen offers only Tutor and Student, so only another caller of the role setter can reach this. |
| CourseListScreen.ButtonFor | app/src/main/java/uk/ac/soton/personal_tutor_app/ui/course/CourseListScreen.kt:115-121 | The enroll button is enabled exactly when the course has no status, with the fixed caption per status and the raw status otherwise. |
| CourseListScreen.Search | app/src/main/java/uk/ac/soton/personal_tutor_app/ui/course/CourseListScreen.kt:92-95 | A blank query keeps every course; otherwise exactly the courses whose title contains the query ignoring case, in order. |
| CourseListScreen.StatusMap | app/src/main/java/uk/ac/soton/personal_tutor_app/ui/course/CourseListScreen.kt:54 | `associate`: the mentioned courses are the keys, and each maps to the status of its last enrollment in the list. |
| CourseListScreen.OnEnrollClick | app/src/main/java/uk/ac/soton/personal_tutor_app/ui/course/CourseListScreen.kt:124-134 | A request is stored and the course shows pending with a disabled button; an exception changes neither. |
| CourseListScreen.EnrolledCourseDisabled | app/src/main/java/uk/ac/soton/personal_tutor_app/ui/course/CourseListScreen.kt:99 | A course the student has any enrollment for can no longer be requested from the list. |
| CourseDetailScreen.IsEnrolled | app/src/main/java/uk/ac/soton/personal_tutor_app/ui/course/CourseDetailScreen.kt:61-67 | True exactly when some enrollment of the user names the course, whatever its status. |
| CourseDetailScreen.View | app/src/main/java/uk/ac/soton/personal_tutor_app/ui/course/CourseDetailScreen.kt:29-71 | New exactly for route "new", tutor exactly for role Tutor, the lesson entry exactly for tutors and enrolled users; the total is the number of lessons and the completed count is the number of completed lessons, so it is 0 exactly when none is completed and the total exactly when all are. |
| CourseDetailScreen.CompletingRaisesProgress | app/src/main/java/uk/ac/soton/personal_tutor_app/ui/course/CourseDetailScreen.kt:70-71 | Completing one unfinished lesson raises the displayed completed count by exactly one and keeps the total. |
| CourseDetailScreen.BuildCourse | app/src/main/java/uk/ac/soton/personal_tutor_app/ui/course/CourseDetailScreen.kt:110-117 | A new course has an empty id, an existing one its route id; the user is the tutor; a blank category is stored as null. |
| CourseDetailScreen.OnSaveClick | app/src/main/java/uk/ac/soton/personal_tutor_app/ui/course/CourseDetailScreen.kt:118-119 | A new course is added under a fresh id, an existing one replaces its document; nothing else changes. |
| CourseDetailScreen.UpdateReplaces | app/src/main/java/uk/ac/soton/personal_tutor_app/ui/course/CourseDetailScreen.kt:119 | Saving an existing course adds no course and gives it to the user who saved it. |
| LessonDetailScreen.FileName | app/src/main/java/uk/ac/soton/personal_tutor_app/ui/lesson/LessonDetailScreen.kt:133 | The shown file name contains no '%', and is the whole URL when the URL has neither '%' nor '?'. |
| LessonDetailScreen.FileNameIsSlice | app/src/main/java/uk/ac/soton/personal_tutor_app/ui/lesson/LessonDetailScreen.kt:133 | Taking what follows the last '%' and then what precedes the last '?' yields a '%'-free contiguous stretch of the URL. |
| LessonDetailScreen.DownloadUrlName | app/src/main/java/uk/ac/soton/personal_tutor_app/ui/lesson/LessonDetailScreen.kt:133 | For a URL `...%2F<name>?<query>` the shown name is "2F" followed by the name (see Findings). |
| LessonDetailScreen.StoredFileName | app/src/main/java/uk/ac/soton/personal_tutor_app/ui/lesson/LessonDetailScreen.kt:133 | The corrected name: when the shown name starts with the "2F" of an escaped '/', the shown name is "2F" followed by the corrected name; otherwise the two are equal. |
| LessonDetailScreen.StoredFileNameHasNoPercent | app/src/main/java/uk/ac/soton/personal_tutor_app/ui/lesson/LessonDetailScreen.kt:133 | The corrected name, like the shown one, contains no '%'. |
| LessonDetailScreen.StoredFileNameOfDownloadUrl | app/src/main/java/uk/ac/soton/personal_tutor_app/ui/lesson/LessonDetailScreen.kt:133 | For a URL `...%2F<name>?<query>` the corrected name is exactly the stored name. |
| LessonDetailScreen.FileCaption | app/src/main/java/uk/ac/soton/personal_tutor_app/ui/lesson/LessonDetailScreen.kt:132-136 | A caption exactly when the page has a file; it is the "当前文件: " label followed by the name `FileName` takes from the URL, with no '%' after the label (as written; see Findings). |
| LessonDetailScreen.UploadCaptionShowsEscape | app/src/main/java/uk/ac/soton/personal_tutor_app/ui/lesson/LessonDetailScreen.kt:133-136 | After an upload to `...%2F<name>?<query>` the page's caption reads "当前文件: 2F<name>" (as written; see Findings). |
| LessonDetailScreen.StoredFileCaption | app/src/main/java/uk/ac/soton/personal_tutor_app/ui/lesson/LessonDetailScreen.kt:132-136 | The corrected caption: present exactly when the page has a file; the same label followed by the corrected stored name, with no '%' after the label. |
| LessonDetailScreen.UploadCaptionNamesFile | app/src/main/java/uk/ac/soton/personal_tutor_app/ui/lesson/LessonDetailScreen.kt:164-166 | With the corrected caption, after an upload to `...%2F<name>?<query>` the page's caption names exactly the uploaded file. |
| LessonDetailScreen.AddPage | app/src/main/java/uk/ac/soton/personal_tutor_app/ui/lesson/LessonDetailScreen.kt:183 | "New Resource Page" appends one empty page and keeps the others. |
| LessonDetailScreen.RemovePageAt | app/src/main/java/uk/ac/soton/personal_tutor_app/ui/lesson/LessonDetailScreen.kt:175 | Removes exactly page `idx`: earlier pages keep their index, later ones move up by one. |
| LessonDetailScreen.EditPageText | app/src/main/java/uk/ac/soton/personal_tutor_app/ui/lesson/LessonDetailScreen.kt:125-126 | Replaces page `idx`'s text, keeps its file and every other page. |
| LessonDetailScreen.AttachFile | app/src/main/java/uk/ac/soton/personal_tutor_app/ui/lesson/LessonDetailScreen.kt:166 | Page `idx` refers to the uploaded file and keeps its text; other pages untouched. |
| LessonDetailScreen.RemoveUndoesAdd | app/src/main/java/uk/ac/soton/personal_tutor_app/ui/lesson/LessonDetailScreen.kt:175 | Deleting the page just added gives the pages back. |
| LessonDetailScreen.EditsOverwrite | app/src/main/java/uk/ac/soton/personal_tutor_app/ui/lesson/LessonDetailScreen.kt:125-126 | Only the last edit of a page's text counts, and re-typing the same text changes nothing. |
| LessonDetailScreen.BuildLesson | app/src/main/java/uk/ac/soton/personal_tutor_app/ui/lesson/LessonDetailScreen.kt:207-213 | The saved lesson has an empty id when new, the route id otherwise, the course, title and pages, and is always saved as not completed with empty content. |
| LessonDetailScreen.CompletionLookup | app/src/main/java/uk/ac/soton/personal_tutor_app/ui/lesson/LessonDetailScreen.kt:76-81 | `first { }` throws exactly when the student has no enrollment for the course; otherwise the first one's id, and completed exactly when it lists the lesson. |
| LessonListScreen.ToggleCompleted | app/src/main/java/uk/ac/soton/personal_tutor_app/ui/lesson/LessonListScreen.kt:123-125 | The tutor's toggle flips `completed` and keeps every other field. |
| LessonListScreen.ToggleTwiceRestores | app/src/main/java/uk/ac/soton/personal_tutor_app/ui/lesson/LessonListScreen.kt:124 | Toggling twice restores the lesson. |
| LessonListScreen.OnLessons | app/src/main/java/uk/ac/soton/personal_tutor_app/ui/lesson/LessonListScreen.kt:44-48 | Each emission replaces the lessons and nothing else. |
| LessonListScreen.OnLessonsError | app/src/main/java/uk/ac/soton/personal_tutor_app/ui/lesson/LessonListScreen.kt:46 | A failed lesson flow sets the error and nothing else. |
| LessonListScreen.OnEnrollments | app/src/main/java/uk/ac/soton/personal_tutor_app/ui/lesson/LessonListScreen.kt:50-59 | Loading ends; the first enrollment for the course, when there is one, supplies its id and completed lessons, otherwise they stay as they were. |
| LessonListScreen.View | app/src/main/java/uk/ac/soton/personal_tutor_app/ui/lesson/LessonListScreen.kt:78-94 | Spinner, then error, then the empty text, then the list, each in both directions. |
| LessonListScreen.LookupEndsLoading | app/src/main/java/uk/ac/soton/personal_tutor_app/ui/lesson/LessonListScreen.kt:58 | Once the enrollment lookup returns, the spinner is gone whatever it found. |
| EnrollApprovalScreen.PendingFor | app/src/main/java/uk/ac/soton/personal_tutor_app/ui/tutor/EnrollApprovalScreen.kt:49 | Exactly the pending requests for the course, in order: an order-preserving selection holding all and only those requests, as many as there are. |
| EnrollApprovalScreen.Accept | app/src/main/java/uk/ac/soton/personal_tutor_app/ui/tutor/EnrollApprovalScreen.kt:105 | Fails exactly on a missing request; otherwise its status becomes accepted, the set of requests is the same and every other request is untouched. |
| EnrollApprovalScreen.Reject | app/src/main/java/uk/ac/soton/personal_tutor_app/ui/tutor/EnrollApprovalScreen.kt:113 | Fails exactly on a missing request; otherwise its status becomes rejected, the set of requests is the same and every other request is untouched. |
| EnrollApprovalScreen.DecisionLeavesPending | app/src/main/java/uk/ac/soton/personal_tutor_app/ui/tutor/EnrollApprovalScreen.kt:105-113 | After either decision the request is in no later pending list, for any course. |
| EnrollApprovalScreen.DecisionsCanBeReversed | app/src/main/java/uk/ac/soton/personal_tutor_app/ui/tutor/EnrollApprovalScreen.kt:105-113 | An accepted request can still be rejected and a rejected one accepted. |
| EnrollApprovalScreen.StudentLabel | app/src/main/java/uk/ac/soton/personal_tutor_app/ui/tutor/EnrollApprovalScreen.kt:90-93 | The display name unless blank, else the profile's email, and the student id when there is no profile. |
| EnrollApprovalScreen.LabelFor | app/src/main/java/uk/ac/soton/personal_tutor_app/ui/tutor/EnrollApprovalScreen.kt:86-93 | A request whose student has no readable profile (none stored, or an empty id) is labelled with the student id, otherwise as `StudentLabel` says for the profile. |
| EnrollApprovalScreen.OnEmission | app/src/main/java/uk/ac/soton/personal_tutor_app/ui/tutor/EnrollApprovalScreen.kt:43-51 | Loading ends; an emission replaces the pending list; an exception sets the error to its message, null included, and keeps the list. |
| EnrollApprovalScreen.OfQuery | app/src/main/java/uk/ac/soton/personal_tutor_app/ui/tutor/EnrollApprovalScreen.kt:43-48 | The flow emits the query's list when it succeeds and closes with an exception carrying the query's message when it fails. |
| EnrollApprovalScreen.View | app/src/main/java/uk/ac/soton/personal_tutor_app/ui/tutor/EnrollApprovalScreen.kt:61-77 | Spinner, then error, then "暂无待审批报名", then the requests, each in both directions. |
| EnrollApprovalScreen.NoCourseShowsError | app/src/main/java/uk/ac/soton/personal_tutor_app/ui/tutor/EnrollApprovalScreen.kt:43-47 | A tutor without courses sees the query's error instead of an empty list. |
| EnrollApprovalScreen.NullMessageFallsThrough | app/src/main/java/uk/ac/soton/personal_tutor_app/ui/tutor/EnrollApprovalScreen.kt:44-75 | An exception without a message sets no error, so the screen shows the "nothing pending" text or the requests it already had instead of the error text. |
| DashboardScreen.CountByCourse | app/src/main/java/uk/ac/soton/personal_tutor_app/ui/dashboard/DashboardScreen.kt:50-52 | `groupingBy { courseId }.eachCount()`: a course is a key exactly when some enrollment names it, and maps to how many do. |
| DashboardScreen.CountKeysAreMentioned | app/src/main/java/uk/ac/soton/personal_tutor_app/ui/dashboard/DashboardScreen.kt:51 | The keys of the counts are exactly the mentioned course ids. |
| DashboardScreen.DisplayedCount | app/src/main/java/uk/ac/soton/personal_tutor_app/ui/dashboard/DashboardScreen.kt:60 | The number beside a course is how many enrollments name it, so 0 exactly when none does (by the contract of `Lists.CountWhere`). |
| DashboardScreen.OnEnrollments | app/src/main/java/uk/ac/soton/personal_tutor_app/ui/dashboard/DashboardScreen.kt:35-40 | Each emission replaces the enrollments and nothing else; an error closing the flow is uncaught and ends the app: an error carrying the query's message, with nothing recorded after it. |
| DashboardScreen.NoCourseEndsApp | app/src/main/java/uk/ac/soton/personal_tutor_app/ui/dashboard/DashboardScreen.kt:35-40 | A tutor who owns no course ends the app on opening the dashboard, with the empty `whereIn` query's error. |
| DashboardScreen.OwnedCourseCollects | app/src/main/java/uk/ac/soton/personal_tutor_app/ui/dashboard/DashboardScreen.kt:35-40 | A tutor who owns a course gets the emission, holding only enrollments for that tutor's courses and all of the snapshot's. |
| DashboardScreen.CountIgnoresStatus | app/src/main/java/uk/ac/soton/personal_tutor_app/ui/dashboard/DashboardScreen.kt:50-52 | Changing an enrollment's status never changes a count: pending and rejected requests are counted as enrolled. |
| DashboardScreen.CountsSumToTotal | app/src/main/java/uk/ac/soton/personal_tutor_app/ui/dashboard/DashboardScreen.kt:59-60 | Over duplicate-free course ids covering every enrollment, the counts add up to the number of enrollments. |

## Left out

- `CalendarRepository.formatTimestamp` is not modelled. It formats a date with the device's locale and clock zone. Timestamps are plain integers here.
- Concurrency is not modelled: two students booking the same slot at the same moment, and listeners firing while a handler runs. Operations are applied one at a time, so the race in `bookTimeSlot`'s read-then-write is not captured.
- Firebase I/O is not modelled: listeners, coroutines, `await`, and deserialization failures, which `mapNotNull` drops. Snapshots are given as lists, and exceptions as an `Option<Exception>` input.
- The availability collection is keyed by tutor. The source queries by `tutorId` and takes the first document, so several documents for one tutor are not modelled.
- `EnrollmentRepository.ForTutor` does not model Firestore's cap on the number of values in a `whereIn` filter.
- `CourseListScreen.Search` uses `Text.ContainsIgnoreCase`, which folds case for ASCII letters only. Kotlin's `ignoreCase` also folds other scripts.
- `CourseDetailScreen.View` does not model the progress bar's floating-point ratio. It keeps the two counts.
- Exceptions that escape a coroutine uncaught end the app. The model records each such exception as an error and nothing after it. It models the ones that follow from the inputs: the empty or null user id in `AuthViewModel.Register` and `AuthViewModel.Login`; the missing profile in `AuthViewModel.Login`; a student with no enrollment for the course in `LessonDetailScreen.CompletionLookup` (`first { }`); and a tutor with no course in `DashboardScreen.OnEnrollments` (`DashboardScreen.NoCourseEndsApp`).
- `AuthViewModel.Register` does not model a `createUserProfile` write that fails for a non-empty user id, for example a network failure. Such an exception is uncaught and ends the app.
- `CourseDetailScreen.OnSaveClick` does not model a course write that fails. The save handler does not catch the exception, so the app ends. The model takes every course write as succeeding.
- `UserRepository.updateUserProfile`, `CourseRepository`, `LessonRepository` and `AuthRepository` are plain pass-throughs and are not part of this model. Course saving is modelled at the screen (`CourseDetailScreen.OnSaveClick`). The lesson collection has no store here: lessons are built and toggled as records.
- The tutor dashboard (`ui/tutor/TutorDashboardScreen.kt`) is not modelled. It averages each course's completion ratios in floating point.
- The tutor calendar screen (`ui/tutor/TutorCalendarScreen.kt`) is not modelled. It repeats the slot additions and deletions of `MeetingScreen.AddSlot` and `MeetingScreen.DeleteSlot`, building its slots from the device clock (`Timestamp.now()`).
- The profile screen is not modelled. It uploads a photo to storage and writes the profile through the pass-through `updateUserProfile`; both are network I/O.
- The user-approval and student meeting screens are not modelled. They only call `UserRepository.PendingUsers`, `UserRepository.ApproveUser`, `UserRepository.RejectUser` and `UserRepository.AllTutors`, which are modelled, and lay out the results.
- `functions/index.js` and `EmialRepository.kt` are not modelled. They send email through a cloud function over the network.
- The file pickers are not modelled. They open the platform's document picker.
- The home, login and register screens, `MainActivity` and `AppCheck.kt` are not modelled. They hold only layout, navigation and start-up: Firebase and app-integrity set-up and a test sign-up.
- `EnrollApprovalScreen.LabelFor` leaves out the moment before the profile arrives, when `produceState` still holds null and the row shows the student id.

## Findings

| source | as written | input that shows it | evidently intended | confidence | as-written member | corrected member |
|---|---|---|---|---|---|---|
| app/src/main/java/uk/ac/soton/personal_tutor_app/ui/lesson/LessonDetailScreen.kt:133 | The shown file name is the text after the last '%' of the download URL, cut at the last '?'. | A Firebase Storage URL `.../o/pdfs%2F1712345.pdf?alt=media&token=abc` shows "2F1712345.pdf": the last '%' is the one of the escaped '/'. | Show the stored name "1712345.pdf". | high; not executed | `LessonDetailScreen.DownloadUrlName` (over `LessonDetailScreen.FileName`), and `LessonDetailScreen.UploadCaptionShowsEscape` for the caption `LessonDetailScreen.FileCaption` | `LessonDetailScreen.StoredFileName`, proved by `LessonDetailScreen.StoredFileNameOfDownloadUrl`; the caption `LessonDetailScreen.StoredFileCaption`, proved by `LessonDetailScreen.UploadCaptionNamesFile` |

=== FILE: auth_view_model.dfy ===
/** AuthViewModel: the sign-in form state and its transitions. Each remote call's outcome is an
    input; the final state is the one the coroutine leaves once that outcome is known. */
module AuthViewModel {
  import opened Wrappers
  import opened Models
  import Users = UserRepository

  datatype AuthUiState = AuthUiState(
    email: string,
    password: string,
    role: string,
    isLoading: bool,
    errorMessage: Option<string>,
    isAuthenticated: bool)

  /** `AuthUiState()`: empty form, role Student, idle, no error, signed out. */
  const Initial := AuthUiState("", "", StudentRole, false, None, false)

  const WaitingForApproval := "Waiting for approval"

  /** The form field setters: each writes its field and clears the error. */
  function OnEmailChanged(s: AuthUiState, v: string): (r: AuthUiState)
    ensures r.email == v && r.errorMessage.None?
    ensures r.(email := s.email, errorMessage := s.errorMessage) == s
  {
    s.(email := v, errorMessage := None)
  }

  function OnPasswordChanged(s: AuthUiState, v: string): (r: AuthUiState)
    ensures r.password == v && r.errorMessage.None?
    ensures r.(password := s.password, errorMessage := s.errorMessage) == s
  {
    s.(password := v, errorMessage := None)
  }

  function OnRoleChanged(s: AuthUiState, v: string): (r: AuthUiState)
    ensures r.role == v && r.errorMessage.None?
    ensures r.(role := s.role, errorMessage := s.errorMessage) == s
  {
    s.(role := v, errorMessage := None)
  }

  /** What the authentication service answered: the current user's id (which may be null) or
      the exception it failed with. */
  datatype AuthReply = Succeeded(currentUserId: Option<string>) | Failed(error: Exception)

  /** The state the coroutine starts from: loading, with the error cleared. */
  function Started(s: AuthUiState): AuthUiState
  {
    s.(isLoading := true, errorMessage := None)
  }

  datatype Registered = Registered(users: Users.UserStore, state: AuthUiState)

  /** `register`: on success, stores the profile under the current user id, or under "" when
      there is none; a Student then waits for approval signed out, while every other role is
      signed in at once. On failure only loading and the error change. The write under "" throws
      inside the coroutine, where nothing catches it: the exception ends the app, and the model
      records only that exception (`Err`), nothing after it. */
  function Register(s: AuthUiState, users: Users.UserStore, reply: AuthReply): (r: Result<Registered>)
    ensures r.Err? <==> reply.Succeeded? && reply.currentUserId.GetOr("") == ""
    ensures r.Err? ==> r.message == Users.EmptyDocumentPath
    ensures r.Ok? ==> !r.value.state.isLoading
    ensures r.Ok? ==> r.value.state.email == s.email && r.value.state.password == s.password && r.value.state.role == s.role
    ensures reply.Failed? ==> r.Ok? && r.value.users == users && r.value.state.errorMessage == reply.error.message
                              && r.value.state.isAuthenticated == s.isAuthenticated
    ensures reply.Succeeded? && r.Ok? ==>
      r.value.users == Users.CreateUserProfile(users, reply.currentUserId.GetOr(""), s.email, s.role).value
    ensures reply.Succeeded? && r.Ok? && s.role == StudentRole ==>
      !r.value.state.isAuthenticated && r.value.state.errorMessage == Some(WaitingForApproval)
    ensures reply.Succeeded? && r.Ok? && s.role != StudentRole ==>
      r.value.state.isAuthenticated && r.value.state.errorMessage.None?
  {
    var st := Started(s);
    match reply
    case Failed(e) => Ok(Registered(users, st.(isLoading := false, errorMessage := e.message)))
    case Succeeded(uid) =>
      match Users.CreateUserProfile(users, uid.GetOr(""), st.email, st.role)
      case Err(msg) => Err(msg)
      case Ok(users') =>
        if st.role == StudentRole then
          Ok(Registered(users', st.(isLoading := false, errorMessage := Some(WaitingForApproval), isAuthenticated := false)))
        else
          Ok(Registered(users', st.(isLoading := false, isAuthenticated := true)))
  }

  /** A profile may sign in when it is a tutor's or has been approved; `rejected` plays no part. */
  predicate Allowed(p: UserProfile)
  {
    p.role == TutorRole || p.approved
  }

  /** `login`: on success, reads the profile under the current user id, or under "" when there
      is none; its role is copied into the form and the user is signed in exactly when allowed,
      with the waiting message exactly when not. A missing profile, or the empty id, makes the
      profile read throw out of the coroutine uncaught: `Err`, with nothing recorded after it. On
      failure only loading and the error change. */
  function Login(s: AuthUiState, users: Users.UserStore, reply: AuthReply): (r: Result<AuthUiState>)
    ensures r.Err? <==> reply.Succeeded? && (reply.currentUserId.GetOr("") == "" || reply.currentUserId.GetOr("") !in users)
    ensures r.Ok? ==> !r.value.isLoading && r.value.email == s.email && r.value.password == s.password
    ensures reply.Failed? ==> r.Ok? && r.value.errorMessage == reply.error.message
                              && r.value.isAuthenticated == s.isAuthenticated && r.value.role == s.role
    ensures reply.Succeeded? && r.Ok? ==>
      var p := users[reply.currentUserId.GetOr("")];
      && r.value.role == p.role
      && (r.value.isAuthenticated <==> Allowed(p))
      && (r.value.errorMessage == Some(WaitingForApproval) <==> !Allowed(p))
      && (Allowed(p) ==> r.value.errorMessage.None?)
  {
    var st := Started(s);
    match reply
    case Failed(e) => Ok(st.(isLoading := false, errorMessage := e.message))
    case Succeeded(uid) =>
      match Users.GetUserProfile(users, uid.GetOr(""))
      case Err(msg) => Err(msg)
      case Ok(p) =>
        var allowed := p.role == TutorRole || p.approved;
        Ok(st.(isLoading := false, role := p.role, isAuthenticated := allowed,
               errorMessage := if !allowed then Some(WaitingForApproval) else None))
  }

  /** `logout`: back to the initial state, whatever the state was. */
  function Logout(s: AuthUiState): (r: AuthUiState)
    ensures !r.isAuthenticated && !r.isLoading && r.errorMessage.None?
    ensures r.email == "" && r.password == "" && r.role == StudentRole
  {
    Initial
  }

  /** A missing user id is read as "" (`?: ""`), so it behaves exactly as an empty one: both
      registration and login throw at `document("")`, whatever the store holds. */
  lemma NullIdIsEmptyId(s: AuthUiState, users: Users.UserStore)
    ensures Register(s, users, Succeeded(None)) == Register(s, users, Succeeded(Some("")))
    ensures Register(s, users, Succeeded(None)) == Err(Users.EmptyDocumentPath)
    ensures Login(s, users, Succeeded(None)) == Login(s, users, Succeeded(Some("")))
    ensures Login(s, users, Succeeded(None)) == Err(Users.EmptyDocumentPath)
  {
  }

  /** Flipping a profile's `rejected` flag never changes the outcome of a login. */
  lemma LoginIgnoresRejected(s: AuthUiState, users: Users.UserStore, uid: string, flag: bool)
    requires uid in users
    ensures Login(s, users, Succeeded(Some(uid))) == Login(s, users[uid := users[uid].(rejected := flag)], Succeeded(Some(uid)))
  {
  }

  /** A registered student cannot sign in until a tutor approves the profile, and can once
      approved. (Registering under an empty id throws instead; see `Register`.) */
  lemma StudentGatedUntilApproved(s: AuthUiState, users: Users.UserStore, uid: string)
    requires s.role == StudentRole && uid != ""
    ensures var reg := Register(s, users, Succeeded(Some(uid))).value;
      && !reg.state.isAuthenticated
      && !Login(reg.state, reg.users, Succeeded(Some(uid))).value.isAuthenticated
      && Users.ApproveUser(reg.users, uid).Ok?
      && Login(reg.state, Users.ApproveUser(reg.users, uid).value, Succeeded(Some(uid))).value.isAuthenticated
  {
  }

  /** A role that is neither Student nor Tutor is signed in by registering, yet the same account
      is refused at its next login: registration and login gate on different conditions. The
      registration screen offers only "Tutor" and "Student", so such a role reaches the view model
      only through a caller of `onRoleChanged` other than that screen; the lemma is about the
      view model's logic, not a path the shipped screens open. */
  lemma OtherRoleSignedInOnlyAtRegistration(s: AuthUiState, users: Users.UserStore, uid: string)
    requires s.role != StudentRole && s.role != TutorRole && uid != ""
    ensures var reg := Register(s, users, Succeeded(Some(uid))).value;
      && reg.state.isAuthenticated
      && !Login(Logout(reg.state), reg.users, Succeeded(Some(uid))).value.isAuthenticated
  {
  }
}

=== FILE: available_slots_screen.dfy ===
/** TutorAvailableSlotsScreen: a student's list of one tutor's slots, with a booking button per
    slot and an optimistic local update after a successful booking. */
module AvailableSlotsScreen {
  import opened Wrappers
  import opened Models
  import opened Views
  import Calendar = CalendarRepository

  datatype SlotsScreen = SlotsScreen(timeSlots: seq<TimeSlot>, isLoading: bool, errorMessage: Option<string>)

  const Initial := SlotsScreen([], true, None)

  const BookingUnavailable := "预约失败，时间段不可用。"
  const BookingFailedPrefix := "预约失败："

  /** The load effect: the tutor's slots, or an empty list when the tutor has no document; an
      exception keeps the previous list and records its message. Loading ends either way. */
  function Load(s: SlotsScreen, store: Calendar.AvailabilityStore, tutorId: string, thrown: Option<Exception>): (r: SlotsScreen)
    ensures !r.isLoading
    ensures thrown.Some? ==> r.timeSlots == s.timeSlots && r.errorMessage == thrown.value.message
    ensures thrown.None? && tutorId in store ==> r.timeSlots == store[tutorId].timeSlots && r.errorMessage.None?
    ensures thrown.None? && tutorId !in store ==> r.timeSlots == [] && r.errorMessage.None?
  {
    if thrown.Some? then SlotsScreen(s.timeSlots, false, thrown.value.message)
    else
      var slots := match Calendar.GetTutorAvailability(store, tutorId)
        case Some(a) => a.timeSlots
        case None => [];
      SlotsScreen(slots, false, None)
  }

  /** Loading first, then the error text, and otherwise the list, which may be empty. */
  function View(s: SlotsScreen): (v: Screen<TimeSlot>)
    ensures v.Loading? <==> s.isLoading
    ensures v.Failed? <==> !s.isLoading && s.errorMessage.Some?
    ensures v.Items? <==> !s.isLoading && s.errorMessage.None?
    ensures v.Items? ==> v.items == s.timeSlots
  {
    if s.isLoading then Loading
    else if s.errorMessage.Some? then Failed(s.errorMessage.value)
    else Items(s.timeSlots)
  }

  /** The booking button is enabled, and its click handler acts, only for an available slot. */
  predicate BookEnabled(slot: TimeSlot)
  {
    slot.available
  }

  /** The optimistic update: every local slot in the booked window is shown as unavailable and
      every other slot is left alone. Unlike the repository it does not record the student. */
  function MarkUnavailable(slots: seq<TimeSlot>, slot: TimeSlot): (r: seq<TimeSlot>)
    ensures |r| == |slots|
    ensures forall i :: 0 <= i < |slots| && Calendar.SameWindow(slots[i], slot) ==> r[i] == slots[i].(available := false)
    ensures forall i :: 0 <= i < |slots| && !Calendar.SameWindow(slots[i], slot) ==> r[i] == slots[i]
  {
    if slots == [] then []
    else
      var head := if Calendar.SameWindow(slots[0], slot) then slots[0].(available := false) else slots[0];
      [head] + MarkUnavailable(slots[1..], slot)
  }

  /** The store and the screen after a click. */
  datatype Clicked = Clicked(store: Calendar.AvailabilityStore, screen: SlotsScreen)

  /** A click on the booking button of `slot` by `studentId`. Nothing happens for an unavailable
      slot. Otherwise the repository books; on success the local list is updated, and on a false
      result or an exception the list is kept and an error message is set. */
  function OnBookClick(s: SlotsScreen, store: Calendar.AvailabilityStore, tutorId: string, slot: TimeSlot,
                       studentId: string, thrown: Option<Exception>): (r: Clicked)
    ensures !BookEnabled(slot) ==> r == Clicked(store, s)
    ensures r.screen.isLoading == s.isLoading
    ensures BookEnabled(slot) && thrown.None? && Calendar.BookTimeSlot(store, tutorId, slot, studentId).success ==>
      && r.store == Calendar.BookTimeSlot(store, tutorId, slot, studentId).store
      && r.screen.timeSlots == MarkUnavailable(s.timeSlots, slot)
      && r.screen.errorMessage == s.errorMessage
    ensures BookEnabled(slot) && thrown.None? && !Calendar.BookTimeSlot(store, tutorId, slot, studentId).success ==>
      r == Clicked(store, s.(errorMessage := Some(BookingUnavailable)))
    ensures BookEnabled(slot) && thrown.Some? ==>
      r == Clicked(store, s.(errorMessage := Some(BookingFailedPrefix + Rendered(thrown.value))))
  {
    if !slot.available then Clicked(store, s)
    else if thrown.Some? then
      Clicked(store, s.(errorMessage := Some(BookingFailedPrefix + Rendered(thrown.value))))
    else
      var booking := Calendar.BookTimeSlot(store, tutorId, slot, studentId);
      if booking.success then Clicked(booking.store, s.(timeSlots := MarkUnavailable(s.timeSlots, slot)))
      else Clicked(store, s.(errorMessage := Some(BookingUnavailable)))
  }

  /** A failed booking sets the error message, and with it the whole list gives way to the error
      text: the screen's `when` checks the error before the list. */
  lemma FailedBookingHidesList(s: SlotsScreen, store: Calendar.AvailabilityStore, tutorId: string, slot: TimeSlot,
                               studentId: string, thrown: Option<Exception>)
    requires !s.isLoading && BookEnabled(slot)
    requires thrown.Some? || !Calendar.BookTimeSlot(store, tutorId, slot, studentId).success
    ensures View(OnBookClick(s, store, tutorId, slot, studentId, thrown).screen).Failed?
  {
  }

  /** When the screen shows exactly the stored list, clicking an available slot of it books it,
      and afterwards the local list and the stored list agree on every slot's window and
      availability; they differ only in that the stored slots record the student. */
  lemma LocalMirrorAgrees(s: SlotsScreen, store: Calendar.AvailabilityStore, tutorId: string, slot: TimeSlot, studentId: string)
    requires tutorId in store && s.timeSlots == store[tutorId].timeSlots
    requires slot in s.timeSlots && BookEnabled(slot)
    ensures var r := OnBookClick(s, store, tutorId, slot, studentId, None);
      && Calendar.BookTimeSlot(store, tutorId, slot, studentId).success
      && |r.screen.timeSlots| == |r.store[tutorId].timeSlots|
      && forall i :: 0 <= i < |r.screen.timeSlots| ==>
           && Calendar.SameWindow(r.screen.timeSlots[i], r.store[tutorId].timeSlots[i])
           && r.screen.timeSlots[i].available == r.store[tutorId].timeSlots[i].available
  {
    var k :| 0 <= k < |s.timeSlots| && s.timeSlots[k] == slot;
    assert Calendar.Bookable(store[tutorId].timeSlots[k], slot);
  }
}

=== FILE: calendar_repository.dfy ===
/** CalendarRepository: the `tutor_availability` collection and the slot-booking rule. */
module CalendarRepository {
  import opened Wrappers
  import opened Models

  /** The collection as the repository reads it: every query filters on `tutorId` and uses the
      first matching document, so the store maps a tutor id to that document. */
  type AvailabilityStore = map<string, TutorAvailability>

  /** Every document is filed under the tutor it belongs to. */
  ghost predicate WellKeyed(store: AvailabilityStore)
  {
    forall t :: t in store ==> store[t].tutorId == t
  }

  /** `getTutorAvailability`: the tutor's document, or null when there is none. */
  function GetTutorAvailability(store: AvailabilityStore, tutorId: string): (r: Option<TutorAvailability>)
    ensures r.None? <==> tutorId !in store
    ensures r.Some? ==> r.value == store[tutorId]
    ensures WellKeyed(store) && r.Some? ==> r.value.tutorId == tutorId
  {
    if tutorId in store then Some(store[tutorId]) else None
  }

  /** The store after a write, and the record the call returned. */
  datatype Created = Created(store: AvailabilityStore, availability: TutorAvailability)

  /** `createDefaultAvailability`: adds an empty availability for the tutor and returns it. */
  function CreateDefaultAvailability(store: AvailabilityStore, tutorId: string): (r: Created)
    ensures r.availability.tutorId == tutorId && r.availability.timeSlots == []
    ensures r.store.Keys == store.Keys + {tutorId}
    ensures r.store[tutorId] == r.availability
    ensures forall t :: t in store && t != tutorId ==> r.store[t] == store[t]
    ensures WellKeyed(store) ==> WellKeyed(r.store)
  {
    var a := TutorAvailability(tutorId, []);
    Created(store[tutorId := a], a)
  }

  /** `updateTimeSlots`: replaces the tutor's whole slot list; a no-op without a document. */
  function UpdateTimeSlots(store: AvailabilityStore, tutorId: string, slots: seq<TimeSlot>): (r: AvailabilityStore)
    ensures tutorId !in store ==> r == store
    ensures r.Keys == store.Keys
    ensures tutorId in store ==> r[tutorId].timeSlots == slots && r[tutorId].tutorId == store[tutorId].tutorId
    ensures forall t :: t in store && t != tutorId ==> r[t] == store[t]
    ensures WellKeyed(store) ==> WellKeyed(r)
  {
    if tutorId !in store then store
    else store[tutorId := store[tutorId].(timeSlots := slots)]
  }

  /** Two slots cover the same window. */
  predicate SameWindow(a: TimeSlot, b: TimeSlot)
  {
    a.start == b.start && a.end == b.end
  }

  /** A slot of the list that a booking request for `target` takes. */
  predicate Bookable(slot: TimeSlot, target: TimeSlot)
  {
    SameWindow(slot, target) && slot.available
  }

  /** Some slot of the list can be booked for `target`. */
  predicate AnyBookable(slots: seq<TimeSlot>, target: TimeSlot)
  {
    exists i :: 0 <= i < |slots| && Bookable(slots[i], target)
  }

  /** The `map` in `bookTimeSlot`: every available slot with the target's start and end becomes
      unavailable and records the student; every other slot keeps its value and position. The
      list comes back unchanged exactly when no slot could be booked. */
  function MarkBooked(slots: seq<TimeSlot>, target: TimeSlot, studentId: string): (r: seq<TimeSlot>)
    ensures |r| == |slots|
    ensures forall i :: 0 <= i < |slots| && Bookable(slots[i], target) ==>
              r[i] == slots[i].(available := false, studentId := studentId)
    ensures forall i :: 0 <= i < |slots| && !Bookable(slots[i], target) ==> r[i] == slots[i]
    ensures r == slots <==> !AnyBookable(slots, target)
  {
    if slots == [] then []
    else
      var head := if Bookable(slots[0], target) then slots[0].(available := false, studentId := studentId) else slots[0];
      var rest := MarkBooked(slots[1..], target, studentId);
      assert slots == [slots[0]] + slots[1..];
      assert AnyBookable(slots, target) <==> Bookable(slots[0], target) || AnyBookable(slots[1..], target) by {
        if AnyBookable(slots[1..], target) {
          var i :| 0 <= i < |slots[1..]| && Bookable(slots[1..][i], target);
          assert Bookable(slots[i + 1], target);
        }
      }
      [head] + rest
  }

  /** What `bookTimeSlot` reports, and the store after it. */
  datatype Booking = Booking(success: bool, store: AvailabilityStore)

  /** `bookTimeSlot`: fails without a document for the tutor; otherwise books every matching
      available slot and succeeds exactly when that changed the list. A failure writes nothing. */
  function BookTimeSlot(store: AvailabilityStore, tutorId: string, slot: TimeSlot, studentId: string): (r: Booking)
    ensures tutorId !in store ==> !r.success
    ensures r.success <==> tutorId in store && AnyBookable(store[tutorId].timeSlots, slot)
    ensures !r.success ==> r.store == store
    ensures r.success ==> r.store == UpdateTimeSlots(store, tutorId, MarkBooked(store[tutorId].timeSlots, slot, studentId))
    ensures r.store.Keys == store.Keys
    ensures forall t :: t in store && t != tutorId ==> r.store[t] == store[t]
  {
    if tutorId !in store then Booking(false, store)
    else
      var doc := store[tutorId];
      var updated := MarkBooked(doc.timeSlots, slot, studentId);
      if updated == doc.timeSlots then Booking(false, store)
      else Booking(true, store[tutorId := doc.(timeSlots := updated)])
  }

  /** Booking keeps the length and order of the tutor's list: slot `i` stays in the same window. */
  lemma BookingKeepsLayout(store: AvailabilityStore, tutorId: string, slot: TimeSlot, studentId: string)
    requires tutorId in store
    ensures var after := BookTimeSlot(store, tutorId, slot, studentId).store;
      && |after[tutorId].timeSlots| == |store[tutorId].timeSlots|
      && forall i :: 0 <= i < |store[tutorId].timeSlots| ==>
           SameWindow(after[tutorId].timeSlots[i], store[tutorId].timeSlots[i])
  {
  }

  /** First writer wins: once S1's booking of a window succeeds, S2's booking of the same window
      fails, writes nothing, and every slot S1 took still records S1. */
  lemma SecondBookingFails(store: AvailabilityStore, tutorId: string, slot: TimeSlot, s1: string, s2: string)
    requires BookTimeSlot(store, tutorId, slot, s1).success
    ensures var after := BookTimeSlot(store, tutorId, slot, s1).store;
      var again := BookTimeSlot(after, tutorId, slot, s2);
      && !again.success
      && again.store == after
      && forall i :: 0 <= i < |store[tutorId].timeSlots| && Bookable(store[tutorId].timeSlots[i], slot) ==>
           after[tutorId].timeSlots[i].studentId == s1 && !after[tutorId].timeSlots[i].available
  {
    var after := BookTimeSlot(store, tutorId, slot, s1).store;
    var booked := after[tutorId].timeSlots;
    forall i | 0 <= i < |booked|
      ensures !Bookable(booked[i], slot)
    {
      if Bookable(store[tutorId].timeSlots[i], slot) {
        assert !booked[i].available;
      } else {
        assert booked[i] == store[tutorId].timeSlots[i];
      }
    }
  }

  /** Writes through the repository keep every document filed under its own tutor. */
  lemma BookingKeepsWellKeyed(store: AvailabilityStore, tutorId: string, slot: TimeSlot, studentId: string)
    requires WellKeyed(store)
    ensures WellKeyed(BookTimeSlot(store, tutorId, slot, studentId).store)
  {
  }
}

=== FILE: course_detail_screen.dfy ===
/** CourseDetailScreen: the flags derived from the route and the student's enrollments, the
    lesson progress counts, and the course a tutor saves. */
module CourseDetailScreen {
  import opened Wrappers
  import opened Models
  import opened Text
  import Lists
  import Enrollments = EnrollmentRepository

  /** The `courses` collection, keyed by document id. */
  type CourseStore = map<string, Course>

  /** What the screen derives before rendering. */
  datatype DetailView = DetailView(
    isNew: bool,
    isTutor: bool,
    isEnrolled: bool,
    showLessonEntry: bool,
    completedCount: nat,
    totalCount: nat)

  function IsCompletedLesson(): Lesson -> bool
  {
    (l: Lesson) => l.completed
  }

  /** The derived view for route `courseId`, signed-in `uid` with `role`, a snapshot `docs` of
      the enrollments and the course's `lessons`. A student counts as enrolled as soon as any of
      their enrollments names the course, whatever its status, and the lesson list is offered
      to tutors and enrolled students only. */
  function View(courseId: string, role: string, uid: string, docs: seq<Enrollment>, lessons: seq<Lesson>): (v: DetailView)
    ensures v.isNew <==> courseId == NewId
    ensures v.isTutor <==> role == TutorRole
    ensures v.isEnrolled <==> HasEnrollment(docs, uid, courseId)
    ensures v.showLessonEntry <==> v.isTutor || v.isEnrolled
    ensures v.totalCount == |lessons|
    ensures v.completedCount == Lists.CountWhere(lessons, IsCompletedLesson())
    ensures v.completedCount <= v.totalCount
    ensures v.completedCount == 0 <==> forall i :: 0 <= i < |lessons| ==> !lessons[i].completed
    ensures v.completedCount == v.totalCount <==> forall i :: 0 <= i < |lessons| ==> lessons[i].completed
  {
    var enrolled := IsEnrolled(docs, uid, courseId);
    var isTutor := role == TutorRole;
    DetailView(courseId == NewId, isTutor, enrolled, isTutor || enrolled,
               Lists.CountWhere(lessons, IsCompletedLesson()), |lessons|)
  }

  /** Progress moves with the lessons themselves: ticking off one unfinished lesson raises the
      completed count by exactly one and leaves the total alone. */
  lemma CompletingRaisesProgress(courseId: string, role: string, uid: string, docs: seq<Enrollment>,
                                 lessons: seq<Lesson>, i: nat)
    requires i < |lessons| && !lessons[i].completed
    ensures View(courseId, role, uid, docs, lessons[i := lessons[i].(completed := true)]).completedCount
         == View(courseId, role, uid, docs, lessons).completedCount + 1
    ensures View(courseId, role, uid, docs, lessons[i := lessons[i].(completed := true)]).totalCount
         == |lessons|
  {
    Lists.CountWhereUpdate(lessons, i, lessons[i].(completed := true), IsCompletedLesson());
  }

  /** Some enrollment of the snapshot binds `uid` to `courseId`. */
  ghost predicate HasEnrollment(docs: seq<Enrollment>, uid: string, courseId: string)
  {
    exists i :: 0 <= i < |docs| && docs[i].studentId == uid && docs[i].courseId == courseId
  }

  /** The enrollment effect: the first of the student's enrollments that names the course. */
  function IsEnrolled(docs: seq<Enrollment>, uid: string, courseId: string): (b: bool)
    ensures b <==> HasEnrollment(docs, uid, courseId)
  {
    var mine := Enrollments.ForStudent(docs, uid);
    var first := Lists.FirstWhere(mine, OfCourse(courseId));
    if first.Some? then
      var k :| 0 <= k < |mine| && mine[k] == first.value && OfCourse(courseId)(mine[k]);
      assert mine[k].studentId == uid && mine[k] in docs;
      true
    else
      assert forall i :: 0 <= i < |docs| && docs[i].studentId == uid ==> docs[i] in mine;
      false
  }

  /** The course built by the save button: a new course has an empty id, an existing one keeps
      the route's id; the tutor is the signed-in user and a blank category is stored as null. */
  function BuildCourse(courseId: string, title: string, description: string, uid: string, category: string): (c: Course)
    ensures courseId == NewId ==> c.id == ""
    ensures courseId != NewId ==> c.id == courseId
    ensures c.title == title && c.description == description && c.tutorId == uid
    ensures c.category.None? <==> IsBlank(category)
    ensures c.category.Some? ==> c.category.value == category
  {
    Course(if courseId == NewId then "" else courseId, title, description, uid,
           if IsBlank(category) then None else Some(category))
  }

  /** The save button: `addCourse` for a new course, stored under the id Firestore picks;
      `updateCourse` otherwise, which replaces (or creates) the document with the route's id. */
  function OnSaveClick(store: CourseStore, courseId: string, title: string, description: string, uid: string,
                       category: string, newId: string): (r: CourseStore)
    requires courseId == NewId ==> newId !in store
    ensures courseId == NewId ==>
      && r.Keys == store.Keys + {newId}
      && r[newId] == BuildCourse(courseId, title, description, uid, category).(id := newId)
      && forall k :: k in store ==> r[k] == store[k]
    ensures courseId != NewId ==>
      && r.Keys == store.Keys + {courseId}
      && r[courseId] == BuildCourse(courseId, title, description, uid, category)
      && forall k :: k in store && k != courseId ==> r[k] == store[k]
    ensures forall k :: k in r ==> r[k].id == k || (k in store && r[k] == store[k])
  {
    var c := BuildCourse(courseId, title, description, uid, category);
    if courseId == NewId then store[newId := c.(id := newId)]
    else store[courseId := c]
  }

  /** Saving an existing course never adds a course, and the saved course belongs to the user
      who saved it. */
  lemma UpdateReplaces(store: CourseStore, courseId: string, title: string, description: string, uid: string,
                       category: string, newId: string)
    requires courseId != NewId && courseId in store
    ensures var r := OnSaveClick(store, courseId, title, description, uid, category, newId);
      |r| == |store| && r[courseId].tutorId == uid
  {
    var r := OnSaveClick(store, courseId, title, description, uid, category, newId);
    assert r.Keys == store.Keys;
  }
}

=== FILE: course_list_screen.dfy ===
/** CourseListScreen: the course search, a student's per-course enrollment status, and the
    enroll button that status drives. */
module CourseListScreen {
  import opened Wrappers
  import opened Models
  import opened Text
  import Lists
  import Enrollments = EnrollmentRepository

  /** The label and enabled flag of a student's enroll button. */
  datatype EnrollButton = EnrollButton(caption: string, enabled: bool)

  const EnrollLabel := "报名"
  const PendingLabel := "已申请"
  const AcceptedLabel := "已报名"
  const RejectedLabel := "已拒绝"

  /** The button for a course with recorded status `stat` (None: no request yet). Only a course
      without a status can be requested; the three known statuses have fixed labels and any
      other status string is shown as it is. */
  function ButtonFor(stat: Option<string>): (b: EnrollButton)
    ensures b.enabled <==> stat.None?
    ensures stat.None? ==> b.caption == EnrollLabel
    ensures stat == Some(Pending) ==> b.caption == PendingLabel
    ensures stat == Some(Accepted) ==> b.caption == AcceptedLabel
    ensures stat == Some(Rejected) ==> b.caption == RejectedLabel
    ensures stat.Some? && stat.value !in {Pending, Accepted, Rejected} ==> b.caption == stat.value
  {
    match stat
    case None => EnrollButton(EnrollLabel, true)
    case Some(st) =>
      if st == Pending then EnrollButton(PendingLabel, false)
      else if st == Accepted then EnrollButton(AcceptedLabel, false)
      else if st == Rejected then EnrollButton(RejectedLabel, false)
      else EnrollButton(st, false)
  }

  function TitleMatches(query: string): Course -> bool
  {
    (c: Course) => ContainsIgnoreCase(c.title, query)
  }

  /** The search: a blank query keeps every course; any other keeps, in order, exactly the
      courses whose title contains the query, ignoring case. */
  function Search(courses: seq<Course>, query: string): (r: seq<Course>)
    ensures IsBlank(query) ==> r == courses
    ensures !IsBlank(query) ==>
      && (forall i :: 0 <= i < |r| ==> ContainsIgnoreCase(r[i].title, query) && r[i] in courses)
      && (forall i :: 0 <= i < |courses| && ContainsIgnoreCase(courses[i].title, query) ==> courses[i] in r)
      && |r| == Lists.CountWhere(courses, TitleMatches(query))
      && Lists.IsSubsequence(r, courses)
  {
    if IsBlank(query) then courses
    else Lists.Filter(courses, TitleMatches(query))
  }

  /** `associate { it.courseId to it.status }`: pairs are inserted in list order, so for a
      course listed more than once the status of its last enrollment wins. */
  function StatusMap(es: seq<Enrollment>): (r: map<string, string>)
    ensures r.Keys == MentionedCourses(es)
    ensures forall i :: 0 <= i < |es| && IsLastFor(es, i) ==> r[es[i].courseId] == es[i].status
  {
    if es == [] then map[]
    else
      var init := es[..|es| - 1];
      var last := es[|es| - 1];
      var m := StatusMap(init);
      StatusMapStep(es, m);
      m[last.courseId := last.status]
  }

  /** The inductive step of `StatusMap`: inserting the last pair into the map of the others. */
  lemma StatusMapStep(es: seq<Enrollment>, m: map<string, string>)
    requires |es| > 0
    requires m.Keys == MentionedCourses(es[..|es| - 1])
    requires forall i :: 0 <= i < |es| - 1 && IsLastFor(es[..|es| - 1], i) ==> m[es[i].courseId] == es[i].status
    ensures var last := es[|es| - 1];
      var r := m[last.courseId := last.status];
      && r.Keys == MentionedCourses(es)
      && forall i :: 0 <= i < |es| && IsLastFor(es, i) ==> r[es[i].courseId] == es[i].status
  {
    var init := es[..|es| - 1];
    var last := es[|es| - 1];
    assert MentionedCourses(es) == MentionedCourses(init) + {last.courseId} by {
      forall c | c in MentionedCourses(es) ensures c in MentionedCourses(init) + {last.courseId} {
        var i :| 0 <= i < |es| && es[i].courseId == c;
        if i < |es| - 1 {
          assert init[i] == es[i];
        }
      }
      forall c | c in MentionedCourses(init) ensures c in MentionedCourses(es) {
        var i :| 0 <= i < |init| && init[i].courseId == c;
        assert es[i] == init[i];
      }
    }
    forall i | 0 <= i < |es| - 1 && IsLastFor(es, i)
      ensures IsLastFor(init, i)
    {
      forall j | i < j < |init| ensures init[j].courseId != init[i].courseId {
        assert init[j] == es[j];
      }
    }
  }

  /** No enrollment after index `i` is for the same course. */
  ghost predicate IsLastFor(es: seq<Enrollment>, i: int)
    requires 0 <= i < |es|
  {
    forall j :: i < j < |es| ==> es[j].courseId != es[i].courseId
  }

  /** The status map and the enrollment store after an enroll click. */
  datatype Enrolled = Enrolled(statuses: map<string, string>, store: Enrollments.EnrollmentStore)

  /** The enroll click: the request is stored and the course's status becomes "pending"; if the
      request throws, neither changes. */
  function OnEnrollClick(statuses: map<string, string>, store: Enrollments.EnrollmentStore, courseId: string,
                         uid: string, newId: string, thrown: Option<Exception>): (r: Enrolled)
    requires thrown.None? ==> newId !in store
    ensures thrown.Some? ==> r == Enrolled(statuses, store)
    ensures thrown.None? ==>
      && r.store == Enrollments.CreateEnrollment(store, newId, courseId, uid)
      && r.statuses.Keys == statuses.Keys + {courseId}
      && r.statuses[courseId] == Pending
      && (forall c :: c in statuses && c != courseId ==> r.statuses[c] == statuses[c])
      && !ButtonFor(Some(r.statuses[courseId])).enabled
  {
    if thrown.Some? then Enrolled(statuses, store)
    else Enrolled(statuses[courseId := Pending], Enrollments.CreateEnrollment(store, newId, courseId, uid))
  }

  /** The button state is read from the map built from the stored enrollments: a course with any
      enrollment of the student can no longer be requested. */
  lemma EnrolledCourseDisabled(es: seq<Enrollment>, i: int)
    requires 0 <= i < |es|
    ensures !ButtonFor(if es[i].courseId in StatusMap(es) then Some(StatusMap(es)[es[i].courseId]) else None).enabled
  {
  }
}

=== FILE: dashboard_screen.dfy ===
/** DashboardScreen: the number of enrollments per course of a tutor. */
module DashboardScreen {
  import opened Wrappers
  import opened Models
  import Lists
  import Enrollments = EnrollmentRepository

  /** `groupingBy { it.courseId }.eachCount()`: exactly the course ids some enrollment
      mentions, each mapped to how many enrollments mention it, whatever their status. */
  function CountByCourse(es: seq<Enrollment>): (r: map<string, nat>)
    ensures forall c :: c in r <==> Lists.CountWhere(es, OfCourse(c)) > 0
    ensures forall c :: c in r ==> r[c] == Lists.CountWhere(es, OfCourse(c))
  {
    if es == [] then map[]
    else
      var m := CountByCourse(es[1..]);
      var c0 := es[0].courseId;
      CountStep(es, m);
      m[c0 := (if c0 in m then m[c0] else 0) + 1]
  }

  /** The inductive step of `CountByCourse`: counting the first enrollment into the counts of
      the others. */
  lemma CountStep(es: seq<Enrollment>, m: map<string, nat>)
    requires |es| > 0
    requires forall c :: c in m <==> Lists.CountWhere(es[1..], OfCourse(c)) > 0
    requires forall c :: c in m ==> m[c] == Lists.CountWhere(es[1..], OfCourse(c))
    ensures var c0 := es[0].courseId;
      var r := m[c0 := (if c0 in m then m[c0] else 0) + 1];
      && (forall c :: c in r <==> Lists.CountWhere(es, OfCourse(c)) > 0)
      && (forall c :: c in r ==> r[c] == Lists.CountWhere(es, OfCourse(c)))
  {
    forall c
      ensures var c0 := es[0].courseId;
        var r := m[c0 := (if c0 in m then m[c0] else 0) + 1];
        && (c in r <==> Lists.CountWhere(es, OfCourse(c)) > 0)
        && (c in r ==> r[c] == Lists.CountWhere(es, OfCourse(c)))
    {
      CountStepAt(es, m, c);
    }
  }

  /** `CountStep` for one course id. */
  lemma CountStepAt(es: seq<Enrollment>, m: map<string, nat>, c: string)
    requires |es| > 0
    requires c in m <==> Lists.CountWhere(es[1..], OfCourse(c)) > 0
    requires c in m ==> m[c] == Lists.CountWhere(es[1..], OfCourse(c))
    requires es[0].courseId in m ==> m[es[0].courseId] == Lists.CountWhere(es[1..], OfCourse(es[0].courseId))
    ensures var c0 := es[0].courseId;
      var r := m[c0 := (if c0 in m then m[c0] else 0) + 1];
      && (c in r <==> Lists.CountWhere(es, OfCourse(c)) > 0)
      && (c in r ==> r[c] == Lists.CountWhere(es, OfCourse(c)))
  {
    CountCons(es, c);
  }

  lemma CountCons(es: seq<Enrollment>, c: string)
    requires |es| > 0
    ensures Lists.CountWhere(es, OfCourse(c))
      == (if c == es[0].courseId then 1 else 0) + Lists.CountWhere(es[1..], OfCourse(c))
  {
  }

  /** The keys of the counts are the course ids the enrollments mention. */
  lemma CountKeysAreMentioned(es: seq<Enrollment>)
    ensures CountByCourse(es).Keys == MentionedCourses(es)
  {
    forall c ensures c in CountByCourse(es) <==> c in MentionedCourses(es) {
      if c in MentionedCourses(es) {
        var i :| 0 <= i < |es| && es[i].courseId == c;
        assert OfCourse(c)(es[i]);
      }
    }
  }

  lemma MentionedCons(es: seq<Enrollment>)
    requires |es| > 0
    ensures MentionedCourses(es) == MentionedCourses(es[1..]) + {es[0].courseId}
  {
    forall c | c in MentionedCourses(es) ensures c in MentionedCourses(es[1..]) + {es[0].courseId} {
      var i :| 0 <= i < |es| && es[i].courseId == c;
      if i > 0 {
        assert es[1..][i - 1] == es[i];
      }
    }
    forall c | c in MentionedCourses(es[1..]) ensures c in MentionedCourses(es) {
      var i :| 0 <= i < |es[1..]| && es[1..][i].courseId == c;
      assert es[i + 1] == es[1..][i];
    }
  }

  /** The count shown beside a course: `countByCourse[course.id] ?: 0`. */
  function DisplayedCount(es: seq<Enrollment>, courseId: string): (n: nat)
    ensures n == Lists.CountWhere(es, OfCourse(courseId))
  {
    var m := CountByCourse(es);
    if courseId in m then m[courseId] else 0
  }

  /** What the screen holds: the tutor's courses, the last emitted enrollments and whether the
      course load is still running. */
  datatype DashboardState = DashboardState(courses: seq<Course>, enrollments: seq<Enrollment>, isLoading: bool)

  /** The enrollment collector. Each emission replaces the enrollments and leaves the rest; the
      flow is collected without a `catch`, so an error closing it is rethrown inside the effect,
      uncaught, and ends the app: `Err`, with nothing recorded after it. */
  function OnEnrollments(s: DashboardState, q: Result<seq<Enrollment>>): (r: Result<DashboardState>)
    ensures r.Err? <==> q.Err?
    ensures r.Err? ==> r.message == q.message
    ensures r.Ok? ==> r.value.enrollments == q.value
    ensures r.Ok? ==> r.value.courses == s.courses && r.value.isLoading == s.isLoading
  {
    match q
    case Err(msg) => Err(msg)
    case Ok(list) => Ok(s.(enrollments := list))
  }

  /** A tutor who owns no course, such as one who has just registered, opens the dashboard and
      the app ends on the empty `whereIn` query's error; the approval screen shows that same
      error instead. */
  lemma NoCourseEndsApp(s: DashboardState, docs: seq<Enrollment>, courses: seq<Course>, tutorId: string)
    requires forall i :: 0 <= i < |courses| ==> courses[i].tutorId != tutorId
    ensures OnEnrollments(s, Enrollments.ForTutor(docs, courses, tutorId)) == Err(Enrollments.EmptyInFilter)
  {
  }

  /** A tutor who owns a course gets the emission through, holding only enrollments for courses
      that tutor owns and every one of them from the snapshot. */
  lemma OwnedCourseCollects(s: DashboardState, docs: seq<Enrollment>, courses: seq<Course>, tutorId: string, j: nat)
    requires j < |courses| && courses[j].tutorId == tutorId
    ensures var r := OnEnrollments(s, Enrollments.ForTutor(docs, courses, tutorId));
      && r.Ok?
      && (forall i :: 0 <= i < |r.value.enrollments| ==> Enrollments.OwnedBy(r.value.enrollments[i], courses, tutorId))
      && (forall i :: 0 <= i < |docs| && Enrollments.OwnedBy(docs[i], courses, tutorId) ==> docs[i] in r.value.enrollments)
  {
  }

  /** Changing an enrollment's status never changes any count. */
  lemma CountIgnoresStatus(es: seq<Enrollment>, i: nat, status: string, courseId: string)
    requires i < |es|
    ensures DisplayedCount(es[i := es[i].(status := status)], courseId) == DisplayedCount(es, courseId)
  {
    var es' := es[i := es[i].(status := status)];
    Lists.CountWhereCongruent(es', es, OfCourse(courseId));
  }

  /** The counts of the listed course ids added up. */
  function SumCounts(es: seq<Enrollment>, keys: seq<string>): nat
  {
    if keys == [] then 0 else DisplayedCount(es, keys[0]) + SumCounts(es, keys[1..])
  }

  /** No course id is listed twice. */
  ghost predicate Distinct(keys: seq<string>)
  {
    forall i, j :: 0 <= i < j < |keys| ==> keys[i] != keys[j]
  }

  /** Over any duplicate-free list of course ids that covers every enrollment, the counts add up
      to the number of enrollments: each enrollment is counted once, under its own course. */
  lemma {:induction false} CountsSumToTotal(es: seq<Enrollment>, keys: seq<string>)
    requires Distinct(keys)
    requires forall i :: 0 <= i < |es| ==> es[i].courseId in keys
    ensures SumCounts(es, keys) == |es|
  {
    if es == [] {
      SumCountsEmpty(keys);
    } else {
      CountsSumToTotal(es[1..], keys);
      SumCountsCons(es, keys);
      OccursOnce(keys, es[0].courseId);
    }
  }

  lemma {:induction false} SumCountsEmpty(keys: seq<string>)
    ensures SumCounts([], keys) == 0
  {
    if keys != [] {
      SumCountsEmpty(keys[1..]);
    }
  }

  /** How many of the keys equal `c`. */
  function Occurrences(keys: seq<string>, c: string): nat
  {
    if keys == [] then 0 else (if keys[0] == c then 1 else 0) + Occurrences(keys[1..], c)
  }

  /** Adding one enrollment in front adds one to the count of each key equal to its course. */
  lemma {:induction false} SumCountsCons(es: seq<Enrollment>, keys: seq<string>)
    requires |es| > 0
    ensures SumCounts(es, keys) == SumCounts(es[1..], keys) + Occurrences(keys, es[0].courseId)
  {
    if keys != [] {
      SumCountsCons(es, keys[1..]);
    }
  }

  lemma {:induction false} OccursOnce(keys: seq<string>, c: string)
    requires Distinct(keys) && c in keys
    ensures Occurrences(keys, c) == 1
  {
    if keys[0] == c {
      OccursNever(keys[1..], c);
    } else {
      OccursOnce(keys[1..], c);
    }
  }

  lemma {:induction false} OccursNever(keys: seq<string>, c: string)
    requires c !in keys
    ensures Occurrences(keys, c) == 0
  {
    if keys != [] {
      OccursNever(keys[1..], c);
    }
  }
}

=== FILE: enroll_approval_screen.dfy ===
/** EnrollApprovalScreen: a tutor's pending requests for one course, accepted or rejected one by
    one, each labelled with the student's name. */
module EnrollApprovalScreen {
  import opened Wrappers
  import opened Models
  import opened Text
  import opened Views
  import Lists
  import Enrollments = EnrollmentRepository
  import Users = UserRepository

  /** A request for `courseId` still waiting for a decision. */
  function IsPendingFor(courseId: string): Enrollment -> bool
  {
    (e: Enrollment) => e.courseId == courseId && e.status == Pending
  }

  /** The filter over each emission of the tutor's enrollments: the pending requests for this
      course, in the order they came. */
  function PendingFor(es: seq<Enrollment>, courseId: string): (r: seq<Enrollment>)
    ensures forall i :: 0 <= i < |r| ==> r[i].courseId == courseId && r[i].status == Pending && r[i] in es
    ensures forall i :: 0 <= i < |es| && es[i].courseId == courseId && es[i].status == Pending ==> es[i] in r
    ensures Lists.IsSubsequence(r, es)
    ensures |r| == Lists.CountWhere(es, IsPendingFor(courseId))
  {
    Lists.Filter(es, IsPendingFor(courseId))
  }

  /** "同意": the request's status becomes "accepted". */
  function Accept(store: Enrollments.EnrollmentStore, id: string): (r: Result<Enrollments.EnrollmentStore>)
    ensures r.Err? <==> id !in store
    ensures r.Ok? ==> id in r.value && r.value[id] == store[id].(status := Accepted)
    ensures r.Ok? ==> r.value.Keys == store.Keys
    ensures r.Ok? ==> forall k :: k in store && k != id ==> r.value[k] == store[k]
  {
    Enrollments.UpdateStatus(store, id, Accepted)
  }

  /** "拒绝": the request's status becomes "rejected". */
  function Reject(store: Enrollments.EnrollmentStore, id: string): (r: Result<Enrollments.EnrollmentStore>)
    ensures r.Err? <==> id !in store
    ensures r.Ok? ==> id in r.value && r.value[id] == store[id].(status := Rejected)
    ensures r.Ok? ==> r.value.Keys == store.Keys
    ensures r.Ok? ==> forall k :: k in store && k != id ==> r.value[k] == store[k]
  {
    Enrollments.UpdateStatus(store, id, Rejected)
  }

  /** After either decision the request drops out of the pending list of every later snapshot,
      whatever course the list is for. */
  lemma DecisionLeavesPending(store: Enrollments.EnrollmentStore, id: string, accept: bool,
                              docs: seq<Enrollment>, courseId: string)
    requires id in store
    requires Enrollments.IsSnapshot((if accept then Accept(store, id) else Reject(store, id)).value, docs)
    ensures forall i :: 0 <= i < |PendingFor(docs, courseId)| ==> PendingFor(docs, courseId)[i].id != id
  {
    var after := (if accept then Accept(store, id) else Reject(store, id)).value;
    var r := PendingFor(docs, courseId);
    forall i | 0 <= i < |r| ensures r[i].id != id {
      var j :| 0 <= j < |docs| && docs[j] == r[i];
      assert after[docs[j].id] == docs[j];
    }
  }

  /** Decisions are not final: an accepted request can still be rejected, and the other way
      round, since the update writes the status whatever it was. */
  lemma DecisionsCanBeReversed(store: Enrollments.EnrollmentStore, id: string)
    requires id in store
    ensures Accept(store, id).Ok? && Reject(Accept(store, id).value, id).Ok?
    ensures Reject(Accept(store, id).value, id).value[id].status == Rejected
    ensures Accept(Reject(store, id).value, id).value[id].status == Accepted
  {
  }

  /** The row label: the profile's display name unless blank, else the profile's email (even an
      empty one), and the student id when no profile could be read. */
  function StudentLabel(profile: Option<UserProfile>, studentId: string): (s: string)
    ensures profile.None? ==> s == studentId
    ensures profile.Some? && !IsBlank(profile.value.displayName) ==> s == profile.value.displayName
    ensures profile.Some? && IsBlank(profile.value.displayName) ==> s == profile.value.email
  {
    match profile
    case None => studentId
    case Some(p) => if IsBlank(p.displayName) then p.email else p.displayName
  }

  /** The label of a request, reading the profile as `runCatching { … }.getOrNull()` does. */
  function LabelFor(users: Users.UserStore, e: Enrollment): (s: string)
    ensures e.studentId == "" || e.studentId !in users ==> s == e.studentId
    ensures e.studentId != "" && e.studentId in users ==> s == StudentLabel(Some(users[e.studentId]), e.studentId)
  {
    StudentLabel(Users.GetUserProfile(users, e.studentId).ToOption(), e.studentId)
  }

  datatype ApprovalState = ApprovalState(pending: seq<Enrollment>, isLoading: bool, error: Option<string>)

  const Initial := ApprovalState([], true, None)

  /** What the tutor's enrollment flow delivers: a list, or the exception that closed it, whose
      message may be null. */
  datatype Emission = Emitted(list: seq<Enrollment>) | Closed(cause: Exception)

  /** The flow over a query outcome: the query's error closes it with that message. */
  function OfQuery(q: Result<seq<Enrollment>>): (r: Emission)
    ensures q.Ok? <==> r.Emitted?
    ensures q.Ok? ==> r.list == q.value
    ensures q.Err? ==> r.cause.message == Some(q.message)
  {
    match q
    case Ok(list) => Emitted(list)
    case Err(msg) => Closed(Exception(Some(msg)))
  }

  /** Each emission of the tutor's enrollment flow, or the exception that closed it: the error
      becomes the exception's message, null included. */
  function OnEmission(s: ApprovalState, emitted: Emission, courseId: string): (r: ApprovalState)
    ensures !r.isLoading
    ensures emitted.Emitted? ==> r.pending == PendingFor(emitted.list, courseId) && r.error == s.error
    ensures emitted.Closed? ==> r.pending == s.pending && r.error == emitted.cause.message
  {
    match emitted
    case Emitted(list) => s.(pending := PendingFor(list, courseId), isLoading := false)
    case Closed(e) => s.(error := e.message, isLoading := false)
  }

  /** The body: spinner, then error, then the "nothing pending" text, then the requests. */
  function View(s: ApprovalState): (v: Screen<Enrollment>)
    ensures v.Loading? <==> s.isLoading
    ensures v.Failed? <==> !s.isLoading && s.error.Some?
    ensures v.Empty? <==> !s.isLoading && s.error.None? && |s.pending| == 0
    ensures v.Items? ==> v.items == s.pending
  {
    Present(s.isLoading, s.error, s.pending)
  }

  /** A tutor without any course gets the query's error instead of an empty list. */
  lemma NoCourseShowsError(docs: seq<Enrollment>, courses: seq<Course>, tutorId: string, courseId: string)
    requires forall i :: 0 <= i < |courses| ==> courses[i].tutorId != tutorId
    ensures View(OnEmission(Initial, OfQuery(Enrollments.ForTutor(docs, courses, tutorId)), courseId)).Failed?
  {
  }

  /** An exception without a message sets no error, so the screen falls through to the
      "nothing pending" text or the requests it already had. */
  lemma NullMessageFallsThrough(s: ApprovalState, courseId: string)
    ensures var v := View(OnEmission(s, Closed(Exception(None)), courseId));
      && !v.Failed?
      && (v.Empty? <==> |s.pending| == 0)
      && (v.Items? ==> v.items == s.pending)
  {
  }
}

=== FILE: enrollment_repository.dfy ===
/** EnrollmentRepository: the `enrollments` collection. Status is a free string written without
    looking at its current value; lesson completion is a set-like list of lesson ids. */
module EnrollmentRepository {
  import opened Wrappers
  import opened Models
  import Lists

  /** The collection, keyed by document id. */
  type EnrollmentStore = map<string, Enrollment>

  /** Every document carries its own id, as `@DocumentId` fills it in on read. */
  ghost predicate WellKeyed(store: EnrollmentStore)
  {
    forall id :: id in store ==> store[id].id == id
  }

  /** `docs` is a query snapshot of the whole collection: each document once, in some order. */
  ghost predicate IsSnapshot(store: EnrollmentStore, docs: seq<Enrollment>)
  {
    && (forall i :: 0 <= i < |docs| ==> docs[i].id in store && store[docs[i].id] == docs[i])
    && (forall id :: id in store ==> exists i :: 0 <= i < |docs| && docs[i].id == id)
  }

  /** The error a field update on a missing document raises. */
  const NotFound := "NOT_FOUND: No document to update"

  /** `createEnrollment`: adds a pending record with no completed lessons under the id Firestore
      picks, which is never one already in use. Nothing checks for an earlier request for the
      same course and student. */
  function CreateEnrollment(store: EnrollmentStore, newId: string, courseId: string, studentId: string): (r: EnrollmentStore)
    requires newId !in store
    ensures r.Keys == store.Keys + {newId}
    ensures r[newId].id == newId && r[newId].courseId == courseId && r[newId].studentId == studentId
    ensures r[newId].status == Pending && r[newId].completedLessons == []
    ensures forall id :: id in store ==> r[id] == store[id]
    ensures WellKeyed(store) ==> WellKeyed(r)
  {
    store[newId := Enrollment(newId, courseId, studentId, Pending, [])]
  }

  /** `updateStatus`: overwrites the status, whatever it was; the other fields stay. */
  function UpdateStatus(store: EnrollmentStore, id: string, newStatus: string): (r: Result<EnrollmentStore>)
    ensures r.Err? <==> id !in store
    ensures r.Ok? ==> r.value.Keys == store.Keys
    ensures r.Ok? ==> r.value[id] == store[id].(status := newStatus)
    ensures r.Ok? ==> forall other :: other in store && other != id ==> r.value[other] == store[other]
    ensures r.Ok? && WellKeyed(store) ==> WellKeyed(r.value)
  {
    if id !in store then Err(NotFound)
    else Ok(store[id := store[id].(status := newStatus)])
  }

  /** Firestore's `arrayUnion`: appends the element unless it is already present. */
  function ArrayUnion(xs: seq<string>, x: string): (r: seq<string>)
    ensures x in r
    ensures forall y :: y in r <==> y in xs || y == x
    ensures x in xs ==> r == xs
    ensures x !in xs ==> |r| == |xs| + 1 && r[..|xs|] == xs
  {
    if x in xs then xs else xs + [x]
  }

  function Differs(x: string): string -> bool
  {
    (y: string) => y != x
  }

  /** Firestore's `arrayRemove`: removes every occurrence of the element. */
  function ArrayRemove(xs: seq<string>, x: string): (r: seq<string>)
    ensures x !in r
    ensures forall y :: y in r <==> y in xs && y != x
    ensures Lists.IsSubsequence(r, xs)
    ensures x !in xs ==> r == xs
  {
    var r := Lists.Filter(xs, Differs(x));
    if x !in xs then
      FilterKeepsAll(xs, Differs(x));
      r
    else r
  }

  /** Filtering with a predicate every element satisfies returns the list itself. */
  lemma {:induction false} FilterKeepsAll<T>(s: seq<T>, p: T -> bool)
    requires forall i :: 0 <= i < |s| ==> p(s[i])
    ensures Lists.Filter(s, p) == s
  {
    if s != [] {
      FilterKeepsAll(s[1..], p);
      assert s == [s[0]] + s[1..];
    }
  }

  /** `markLessonComplete`: adds the lesson id (`completed`) or removes it (otherwise); no other
      field changes. */
  function MarkLessonComplete(store: EnrollmentStore, id: string, lessonId: string, completed: bool): (r: Result<EnrollmentStore>)
    ensures r.Err? <==> id !in store
    ensures r.Ok? ==> r.value.Keys == store.Keys
    ensures r.Ok? ==> (lessonId in r.value[id].completedLessons <==> completed)
    ensures r.Ok? ==> forall l :: l != lessonId ==>
              (l in r.value[id].completedLessons <==> l in store[id].completedLessons)
    ensures r.Ok? ==> r.value[id] == store[id].(completedLessons := r.value[id].completedLessons)
    ensures r.Ok? ==> forall other :: other in store && other != id ==> r.value[other] == store[other]
  {
    if id !in store then Err(NotFound)
    else
      var e := store[id];
      var lessons := if completed then ArrayUnion(e.completedLessons, lessonId) else ArrayRemove(e.completedLessons, lessonId);
      Ok(store[id := e.(completedLessons := lessons)])
  }

  /** Marking a lesson complete a second time changes nothing. */
  lemma MarkCompleteIdempotent(store: EnrollmentStore, id: string, lessonId: string)
    requires id in store
    ensures var once := MarkLessonComplete(store, id, lessonId, true).value;
      MarkLessonComplete(once, id, lessonId, true) == Ok(once)
  {
    var once := MarkLessonComplete(store, id, lessonId, true).value;
    assert once[id := once[id]] == once;
  }

  /** Un-marking a lesson that was not complete before marking it restores the record. */
  lemma MarkThenUnmarkRestores(store: EnrollmentStore, id: string, lessonId: string)
    requires id in store && lessonId !in store[id].completedLessons
    ensures var once := MarkLessonComplete(store, id, lessonId, true).value;
      MarkLessonComplete(once, id, lessonId, false) == Ok(store)
  {
    var e := store[id];
    var xs := e.completedLessons;
    var ys := xs + [lessonId];
    assert ArrayUnion(xs, lessonId) == ys;
    var once := store[id := e.(completedLessons := ys)];
    assert MarkLessonComplete(store, id, lessonId, true) == Ok(once);
    FilterAppendDropped(xs, lessonId);
    assert ArrayRemove(ys, lessonId) == xs;
    assert once[id].(completedLessons := xs) == e;
    assert MarkLessonComplete(once, id, lessonId, false) == Ok(once[id := e]);
    WriteBackRestores(store, id, e.(completedLessons := ys));
  }

  /** Writing a record and then writing the old record back restores the store. */
  lemma WriteBackRestores(store: EnrollmentStore, id: string, x: Enrollment)
    requires id in store
    ensures store[id := x][id := store[id]] == store
  {
    var back := store[id := x][id := store[id]];
    assert back.Keys == store.Keys;
    assert forall k :: k in back ==> back[k] == store[k];
  }

  /** Removing an element appended to a list without it gives the list back. */
  lemma FilterAppendDropped(xs: seq<string>, x: string)
    requires x !in xs
    ensures Lists.Filter(xs + [x], Differs(x)) == xs
  {
    Lists.FilterAppend(xs, [x], Differs(x));
    FilterKeepsAll(xs, Differs(x));
    assert Lists.Filter([x], Differs(x)) == Lists.Filter([x][1..], Differs(x));
  }

  /** Two requests for the same course by the same student leave two records for the pair. */
  lemma CreateTwiceAddsTwo(store: EnrollmentStore, id1: string, id2: string, courseId: string, studentId: string)
    requires id1 !in store && id2 !in store && id1 != id2
    ensures var twice := CreateEnrollment(CreateEnrollment(store, id1, courseId, studentId), id2, courseId, studentId);
      |PairIds(twice, courseId, studentId)| == |PairIds(store, courseId, studentId)| + 2
  {
    var once := CreateEnrollment(store, id1, courseId, studentId);
    CreateAddsPair(store, id1, courseId, studentId);
    CreateAddsPair(once, id2, courseId, studentId);
  }

  /** One request adds its fresh id to the pair's records. */
  lemma CreateAddsPair(store: EnrollmentStore, id: string, courseId: string, studentId: string)
    requires id !in store
    ensures |PairIds(CreateEnrollment(store, id, courseId, studentId), courseId, studentId)|
         == |PairIds(store, courseId, studentId)| + 1
  {
    var before := PairIds(store, courseId, studentId);
    var after := PairIds(CreateEnrollment(store, id, courseId, studentId), courseId, studentId);
    assert after == before + {id};
    assert id !in before;
  }

  /** The ids of the records binding `studentId` to `courseId`. */
  ghost function PairIds(store: EnrollmentStore, courseId: string, studentId: string): set<string>
  {
    set id | id in store && store[id].courseId == courseId && store[id].studentId == studentId
  }

  /** `getEnrollmentsForStudent`: the snapshot's records of that student, in snapshot order. */
  function ForStudent(docs: seq<Enrollment>, studentId: string): (r: seq<Enrollment>)
    ensures forall i :: 0 <= i < |r| ==> r[i].studentId == studentId && r[i] in docs
    ensures forall i :: 0 <= i < |docs| && docs[i].studentId == studentId ==> docs[i] in r
    ensures Lists.IsSubsequence(r, docs)
    ensures |r| == Lists.CountWhere(docs, OfStudent(studentId))
  {
    Lists.Filter(docs, OfStudent(studentId))
  }

  function OwnedCourse(tutorId: string): Course -> bool
  {
    (c: Course) => c.tutorId == tutorId
  }

  /** The ids of the courses a tutor owns (the course query), in the order it lists them. */
  function CourseIdsOf(courses: seq<Course>, tutorId: string): (r: seq<string>)
    ensures r == [] <==> forall i :: 0 <= i < |courses| ==> courses[i].tutorId != tutorId
    ensures forall i :: 0 <= i < |courses| && courses[i].tutorId == tutorId ==> courses[i].id in r
    ensures forall j :: 0 <= j < |r| ==> exists i :: 0 <= i < |courses| && courses[i].tutorId == tutorId && courses[i].id == r[j]
  {
    var owned := Lists.Filter(courses, OwnedCourse(tutorId));
    var r := seq(|owned|, k requires 0 <= k < |owned| => owned[k].id);
    assert forall i :: 0 <= i < |courses| && courses[i].tutorId == tutorId ==> courses[i].id in r by {
      forall i | 0 <= i < |courses| && courses[i].tutorId == tutorId
        ensures courses[i].id in r
      {
        assert OwnedCourse(tutorId)(courses[i]);
        var k :| 0 <= k < |owned| && owned[k] == courses[i];
        assert r[k] == courses[i].id;
      }
    }
    assert forall j :: 0 <= j < |r| ==> exists i :: 0 <= i < |courses| && courses[i].tutorId == tutorId && courses[i].id == r[j] by {
      forall j | 0 <= j < |r|
        ensures exists i :: 0 <= i < |courses| && courses[i].tutorId == tutorId && courses[i].id == r[j]
      {
        assert owned[j] in courses && OwnedCourse(tutorId)(owned[j]);
      }
    }
    r
  }

  function InCourses(courseIds: seq<string>): Enrollment -> bool
  {
    (e: Enrollment) => e.courseId in courseIds
  }

  /** The message of the exception Firestore raises for an `in` filter on an empty list. */
  const EmptyInFilter := "Invalid Query. A non-empty array is required for 'in' filters."

  /** `getEnrollmentsForTutor`: the enrollments of every course the tutor owns. A tutor with no
      course makes the `whereIn` query throw, which closes the flow with that error. */
  function ForTutor(docs: seq<Enrollment>, courses: seq<Course>, tutorId: string): (r: Result<seq<Enrollment>>)
    ensures r.Err? <==> forall i :: 0 <= i < |courses| ==> courses[i].tutorId != tutorId
    ensures r.Ok? ==> forall i :: 0 <= i < |r.value| ==> r.value[i] in docs && OwnedBy(r.value[i], courses, tutorId)
    ensures r.Ok? ==> forall i :: 0 <= i < |docs| && OwnedBy(docs[i], courses, tutorId) ==> docs[i] in r.value
    ensures r.Ok? ==> Lists.IsSubsequence(r.value, docs)
    ensures r.Ok? ==> |r.value| == Lists.CountWhere(docs, InCourses(CourseIdsOf(courses, tutorId)))
  {
    var ids := CourseIdsOf(courses, tutorId);
    if ids == [] then Err(EmptyInFilter)
    else
      var r := Lists.Filter(docs, InCourses(ids));
      assert forall i :: 0 <= i < |r| ==> OwnedBy(r[i], courses, tutorId) by {
        forall i | 0 <= i < |r| ensures OwnedBy(r[i], courses, tutorId) {
          assert InCourses(ids)(r[i]);
          var j :| 0 <= j < |ids| && ids[j] == r[i].courseId;
        }
      }
      Ok(r)
  }

  /** The enrollment is for a course that `tutorId` owns. */
  ghost predicate OwnedBy(e: Enrollment, courses: seq<Course>, tutorId: string)
  {
    exists i :: 0 <= i < |courses| && courses[i].tutorId == tutorId && courses[i].id == e.courseId
  }
}

=== FILE: lesson_detail_screen.dfy ===
/** LessonDetailScreen: the attached-file name shown under a page, the tutor's page edits, the
    lesson built on save, and a student's completion lookup. */
module LessonDetailScreen {
  import opened Wrappers
  import opened Models
  import opened Text
  import Lists

  /** `url.substringAfterLast("%").substringBeforeLast("?")`: what follows the last '%', cut
      before the last '?' of that remainder. The result is a stretch of the URL with no '%' in
      it, and a URL with neither character is shown whole. */
  function FileName(url: string): (r: string)
    ensures '%' !in r
    ensures '%' !in url && '?' !in url ==> r == url
  {
    var after := SubstringAfterLast(url, '%');
    var r := SubstringBeforeLast(after, '?');
    FileNameIsSlice(url, after, r);
    r
  }

  /** The steps of `FileName`: the remainder is a suffix of the URL and the result a prefix of
      the remainder, so the result is a '%'-free slice of the URL. */
  lemma FileNameIsSlice(url: string, after: string, r: string)
    requires after == SubstringAfterLast(url, '%') && r == SubstringBeforeLast(after, '?')
    ensures '%' !in r
    ensures exists a, b :: 0 <= a <= b <= |url| && r == url[a..b]
  {
    var a := LastIndexOf(url, '%') + 1;
    assert after == url[a..];
    var k := LastIndexOf(after, '?');
    var b := if k == -1 then |after| else k;
    assert r == after[..b];
    assert r == url[a..a + b];
    assert forall i :: 0 <= i < |r| ==> r[i] == after[i];
  }

  /** The last occurrence of `c` in `s + [c] + t`, when `t` has none, is the one between. */
  lemma {:induction false} LastIndexOfSplit(s: string, c: char, t: string)
    requires c !in t
    ensures LastIndexOf(s + [c] + t, c) == |s|
  {
    var u := s + [c] + t;
    var k := LastIndexOf(u, c);
    assert u[|s|] == c;
    forall j | |s| < j < |u|
      ensures u[j] != c
    {
      assert u[j] == t[j - |s| - 1];
    }
    forall j | k < j < |u|
      ensures u[j] != c
    {
      assert u[k + 1..][j - k - 1] == u[j];
    }
  }

  /** For a Firebase Storage download URL `…%2F<name>?<query>`, the screen shows "2F" followed
      by the stored name: the cut happens at the last '%', which is the one of the escaped
      '/', so the escape's two hex digits stay in the displayed name. */
  lemma DownloadUrlName(prefix: string, name: string, query: string)
    requires '%' !in name && '?' !in name && '%' !in query && '?' !in query
    ensures FileName(prefix + "%2F" + name + "?" + query) == "2F" + name
  {
    var url := prefix + "%2F" + name + "?" + query;
    var tail := "2F" + name + "?" + query;
    assert url == prefix + ['%'] + tail;
    assert '%' !in tail;
    LastIndexOfSplit(prefix, '%', tail);
    assert SubstringAfterLast(url, '%') == tail;
    assert tail == ("2F" + name) + ['?'] + query;
    LastIndexOfSplit("2F" + name, '?', query);
  }

  /** The name the caption evidently means to show: the stored file name, without the "2F" that
      `FileName` keeps from the escaped '/' in front of it. */
  function StoredFileName(url: string): (r: string)
    ensures "2F" <= FileName(url) ==> FileName(url) == "2F" + r
    ensures !("2F" <= FileName(url)) ==> r == FileName(url)
  {
    var f := FileName(url);
    if "2F" <= f then
      SplitPrefix("2F", f);
      f[2..]
    else f
  }

  lemma SplitPrefix(p: string, s: string)
    requires p <= s
    ensures s == p + s[|p|..]
  {
    assert s[..|p|] == p;
  }

  lemma DropPrefix(s: string, n: nat, c: char)
    requires n <= |s| && c !in s
    ensures c !in s[n..] && s[..n] + s[n..] == s
  {
    assert forall i :: 0 <= i < |s[n..]| ==> s[n..][i] == s[i + n];
  }

  /** Dropping the "2F" keeps the name free of '%'. */
  lemma StoredFileNameHasNoPercent(url: string)
    ensures '%' !in StoredFileName(url)
  {
    if "2F" <= FileName(url) {
      DropPrefix(FileName(url), 2, '%');
    }
  }

  /** For a download URL `…%2F<name>?<query>`, `StoredFileName` gives back exactly the name the
      file was stored under. */
  lemma StoredFileNameOfDownloadUrl(prefix: string, name: string, query: string)
    requires '%' !in name && '?' !in name && '%' !in query && '?' !in query
    ensures StoredFileName(prefix + "%2F" + name + "?" + query) == name
  {
    DownloadUrlName(prefix, name, query);
    assert ("2F" + name)[..2] == "2F";
    assert ("2F" + name)[2..] == name;
  }

  const CurrentFilePrefix := "当前文件: "

  /** The caption under a page as the screen draws it: present exactly when the page has a file
      attached, and naming the file by `FileName` of its URL. */
  function FileCaption(page: LessonPage): (r: Option<string>)
    ensures r.None? <==> page.imageUrl.None?
    ensures r.Some? ==> r.value == CurrentFilePrefix + FileName(page.imageUrl.value)
    ensures r.Some? ==> '%' !in r.value[|CurrentFilePrefix|..]
  {
    match page.imageUrl
    case None => None
    case Some(url) =>
      var c := CurrentFilePrefix + FileName(url);
      assert c[|CurrentFilePrefix|..] == FileName(url);
      Some(c)
  }

  /** As written, a page that gets a freshly uploaded file, at `…%2F<name>?<query>`, is captioned
      with "2F" in front of that file's name. */
  lemma UploadCaptionShowsEscape(pages: seq<LessonPage>, idx: nat, prefix: string, name: string, query: string)
    requires idx < |pages|
    requires '%' !in name && '?' !in name && '%' !in query && '?' !in query
    ensures FileCaption(AttachFile(pages, idx, prefix + "%2F" + name + "?" + query)[idx])
         == Some(CurrentFilePrefix + "2F" + name)
  {
    var url := prefix + "%2F" + name + "?" + query;
    var page := AttachFile(pages, idx, url)[idx];
    assert page.imageUrl == Some(url);
    assert FileCaption(page) == Some(CurrentFilePrefix + FileName(url));
    DownloadUrlName(prefix, name, query);
    assert CurrentFilePrefix + ("2F" + name) == CurrentFilePrefix + "2F" + name;
  }

  /** The caption the screen evidently means to draw: the same label, naming the stored file. */
  function StoredFileCaption(page: LessonPage): (r: Option<string>)
    ensures r.None? <==> page.imageUrl.None?
    ensures r.Some? ==> r.value == CurrentFilePrefix + StoredFileName(page.imageUrl.value)
    ensures r.Some? ==> '%' !in r.value[|CurrentFilePrefix|..]
  {
    match page.imageUrl
    case None => None
    case Some(url) =>
      var c := CurrentFilePrefix + StoredFileName(url);
      StoredFileNameHasNoPercent(url);
      assert c[|CurrentFilePrefix|..] == StoredFileName(url);
      Some(c)
  }

  /** With the corrected caption, a page that gets a freshly uploaded file, at
      `…%2F<name>?<query>`, is captioned with exactly that file's name. */
  lemma UploadCaptionNamesFile(pages: seq<LessonPage>, idx: nat, prefix: string, name: string, query: string)
    requires idx < |pages|
    requires '%' !in name && '?' !in name && '%' !in query && '?' !in query
    ensures StoredFileCaption(AttachFile(pages, idx, prefix + "%2F" + name + "?" + query)[idx]) == Some(CurrentFilePrefix + name)
  {
    StoredFileNameOfDownloadUrl(prefix, name, query);
  }

  /** "New Resource Page": appends one empty page. */
  function AddPage(pages: seq<LessonPage>): (r: seq<LessonPage>)
    ensures |r| == |pages| + 1 && r[..|pages|] == pages && r[|pages|] == EmptyPage
  {
    pages + [EmptyPage]
  }

  /** "Delete Resource Page" on page `idx`: removes exactly that page; the pages before it keep
      their index and those after it move up by one. */
  function RemovePageAt(pages: seq<LessonPage>, idx: nat): (r: seq<LessonPage>)
    requires idx < |pages|
    ensures |r| == |pages| - 1
    ensures forall i :: 0 <= i < idx ==> r[i] == pages[i]
    ensures forall i :: idx <= i < |r| ==> r[i] == pages[i + 1]
    ensures multiset(r) == multiset(pages) - multiset{pages[idx]}
  {
    assert pages == pages[..idx] + [pages[idx]] + pages[idx + 1..];
    pages[..idx] + pages[idx + 1..]
  }

  /** Typing into page `idx`: replaces that page's text and keeps its file. */
  function EditPageText(pages: seq<LessonPage>, idx: nat, text: string): (r: seq<LessonPage>)
    requires idx < |pages|
    ensures |r| == |pages|
    ensures r[idx].text == text && r[idx].imageUrl == pages[idx].imageUrl
    ensures forall i :: 0 <= i < |pages| && i != idx ==> r[i] == pages[i]
  {
    pages[idx := pages[idx].(text := text)]
  }

  /** A finished upload for page `idx`: the page now refers to the file's download URL. */
  function AttachFile(pages: seq<LessonPage>, idx: nat, url: string): (r: seq<LessonPage>)
    requires idx < |pages|
    ensures |r| == |pages|
    ensures r[idx].imageUrl == Some(url) && r[idx].text == pages[idx].text
    ensures forall i :: 0 <= i < |pages| && i != idx ==> r[i] == pages[i]
  {
    pages[idx := pages[idx].(imageUrl := Some(url))]
  }

  /** Deleting the page just added gives the pages back. */
  lemma RemoveUndoesAdd(pages: seq<LessonPage>)
    ensures RemovePageAt(AddPage(pages), |pages|) == pages
  {
  }

  /** Only the last edit of a page's text counts, and re-typing a page's own text changes nothing. */
  lemma EditsOverwrite(pages: seq<LessonPage>, idx: nat, a: string, b: string)
    requires idx < |pages|
    ensures EditPageText(EditPageText(pages, idx, a), idx, b) == EditPageText(pages, idx, b)
    ensures EditPageText(pages, idx, pages[idx].text) == pages
  {
  }

  /** The lesson the save button writes: an empty id for the "new" route and the route's id
      otherwise, with the route's course, the edited title and pages. The lesson is built with
      the constructor's defaults for the other fields, so it is saved as not completed. */
  function BuildLesson(lessonId: string, courseId: string, title: string, pages: seq<LessonPage>): (l: Lesson)
    ensures lessonId == NewId ==> l.id == ""
    ensures lessonId != NewId ==> l.id == lessonId
    ensures l.courseId == courseId && l.title == title && l.pages == pages
    ensures !l.completed && l.content == ""
  {
    Lesson(if lessonId == NewId then "" else lessonId, courseId, title, "", false, pages)
  }

  /** What a student's load effect learns from their enrollment for the course. */
  datatype Completion = Completion(enrollmentId: string, isCompleted: bool)

  /** The message of the `NoSuchElementException` Kotlin's `Iterable.first { … }` throws when
      nothing matches. */
  const NoMatch := "Collection contains no element matching the predicate."

  /** The student branch of the load effect over the student's enrollments `mine`: the first
      enrollment for the course supplies the enrollment id, and the lesson counts as completed
      exactly when that enrollment lists it. With no enrollment for the course, `first` throws. */
  function CompletionLookup(mine: seq<Enrollment>, courseId: string, lessonId: string): (r: Result<Completion>)
    ensures r.Err? <==> forall i :: 0 <= i < |mine| ==> mine[i].courseId != courseId
    ensures r.Ok? ==> exists k :: 0 <= k < |mine| && mine[k].courseId == courseId
                       && Lists.IsFirstWhere(mine, OfCourse(courseId), k)
                       && r.value.enrollmentId == mine[k].id
                       && (r.value.isCompleted <==> lessonId in mine[k].completedLessons)
  {
    match Lists.FirstWhere(mine, OfCourse(courseId))
    case None => Err(NoMatch)
    case Some(e) => Ok(Completion(e.id, lessonId in e.completedLessons))
  }
}

=== FILE: lesson_list_screen.dfy ===
/** LessonListScreen: a course's lessons, the tutor's completion toggle and the student's
    enrollment lookup. */
module LessonListScreen {
  import opened Wrappers
  import opened Models
  import opened Views
  import Lists

  datatype LessonListState = LessonListState(
    lessons: seq<Lesson>,
    completedLessons: seq<string>,
    enrollmentId: string,
    isLoading: bool,
    error: Option<string>)

  const Initial := LessonListState([], [], "", true, None)

  /** The tutor's button: the lesson saved with its completion flag flipped and nothing else
      changed. */
  function ToggleCompleted(l: Lesson): (r: Lesson)
    ensures r.completed == !l.completed
    ensures r.id == l.id && r.courseId == l.courseId && r.title == l.title
    ensures r.content == l.content && r.pages == l.pages
  {
    l.(completed := !l.completed)
  }

  /** Toggling twice restores the lesson. */
  lemma ToggleTwiceRestores(l: Lesson)
    ensures ToggleCompleted(ToggleCompleted(l)) == l
  {
  }

  /** A snapshot of the course's lessons replaces the list. */
  function OnLessons(s: LessonListState, lessons: seq<Lesson>): (r: LessonListState)
    ensures r.lessons == lessons && r.(lessons := s.lessons) == s
  {
    s.(lessons := lessons)
  }

  /** A failing lesson flow records the exception's message. */
  function OnLessonsError(s: LessonListState, e: Exception): (r: LessonListState)
    ensures r.error == e.message && r.(error := s.error) == s
  {
    s.(error := e.message)
  }

  /** The enrollment effect over the student's enrollments `mine`: the first one for the course
      supplies the enrollment id and completed lessons; with none they keep their values.
      Loading ends either way. */
  function OnEnrollments(s: LessonListState, mine: seq<Enrollment>, courseId: string): (r: LessonListState)
    ensures !r.isLoading
    ensures r.lessons == s.lessons && r.error == s.error
    ensures (forall i :: 0 <= i < |mine| ==> mine[i].courseId != courseId) ==>
      r.enrollmentId == s.enrollmentId && r.completedLessons == s.completedLessons
    ensures (exists i :: 0 <= i < |mine| && mine[i].courseId == courseId) ==>
      exists k :: 0 <= k < |mine| && mine[k].courseId == courseId && Lists.IsFirstWhere(mine, OfCourse(courseId), k)
        && r.enrollmentId == mine[k].id && r.completedLessons == mine[k].completedLessons
  {
    match Lists.FirstWhere(mine, OfCourse(courseId))
    case None => s.(isLoading := false)
    case Some(e) => s.(enrollmentId := e.id, completedLessons := e.completedLessons, isLoading := false)
  }

  /** The body: a spinner while loading, then the error, then the empty-course text, then the
      lessons. */
  function View(s: LessonListState): (v: Screen<Lesson>)
    ensures v.Loading? <==> s.isLoading
    ensures v.Failed? <==> !s.isLoading && s.error.Some?
    ensures v.Empty? <==> !s.isLoading && s.error.None? && |s.lessons| == 0
    ensures v.Items? ==> v.items == s.lessons && |s.lessons| > 0
  {
    Present(s.isLoading, s.error, s.lessons)
  }

  /** Once the enrollment lookup has answered, the spinner is gone for tutors and students
      alike, enrolled or not. */
  lemma LookupEndsLoading(s: LessonListState, mine: seq<Enrollment>, courseId: string)
    ensures !View(OnEnrollments(s, mine, courseId)).Loading?
  {
  }
}

=== FILE: lists.dfy ===
/** The Kotlin collection operations the app applies to its lists, as recursive functions on
    sequences, each with a contract that pins its result down independently of the recursion. */
module Lists {
  import opened Wrappers

  /** `b` contains the elements of `a` in the same order, possibly with others in between. */
  ghost predicate IsSubsequence<T>(a: seq<T>, b: seq<T>)
    decreases |b|
  {
    if a == [] then true
    else if b == [] then false
    else (a[0] == b[0] && IsSubsequence(a[1..], b[1..])) || IsSubsequence(a, b[1..])
  }

  /** Kotlin's `count { p(it) }`. */
  function CountWhere<T>(s: seq<T>, p: T -> bool): (n: nat)
    ensures n <= |s|
    ensures n == 0 <==> forall i :: 0 <= i < |s| ==> !p(s[i])
    ensures n == |s| <==> forall i :: 0 <= i < |s| ==> p(s[i])
  {
    if s == [] then 0
    else (if p(s[0]) then 1 else 0) + CountWhere(s[1..], p)
  }

  lemma {:induction false} CountWhereAppend<T>(a: seq<T>, b: seq<T>, p: T -> bool)
    ensures CountWhere(a + b, p) == CountWhere(a, p) + CountWhere(b, p)
  {
    if a == [] {
      assert a + b == b;
    } else {
      assert (a + b)[1..] == a[1..] + b;
      CountWhereAppend(a[1..], b, p);
    }
  }

  /** Two lists that agree, position by position, on `p` have the same count. */
  lemma {:induction false} CountWhereCongruent<T>(a: seq<T>, b: seq<T>, p: T -> bool)
    requires |a| == |b|
    requires forall i :: 0 <= i < |a| ==> p(a[i]) == p(b[i])
    ensures CountWhere(a, p) == CountWhere(b, p)
  {
    if a != [] {
      CountWhereCongruent(a[1..], b[1..], p);
    }
  }

  /** Replacing one element moves the count by what that element contributes before and after. */
  lemma {:induction false} CountWhereUpdate<T>(s: seq<T>, i: nat, x: T, p: T -> bool)
    requires i < |s|
    ensures CountWhere(s[i := x], p) + (if p(s[i]) then 1 else 0)
         == CountWhere(s, p) + (if p(x) then 1 else 0)
  {
    if i == 0 {
      assert s[i := x][1..] == s[1..];
    } else {
      assert s[i := x][1..] == s[1..][i - 1 := x];
      CountWhereUpdate(s[1..], i - 1, x, p);
    }
  }

  /** Kotlin's `filter { p(it) }`: the elements satisfying `p`, in their original order. The
      three properties together determine the result: an order-preserving selection from `s`
      of exactly as many elements as satisfy `p`, all of which satisfy it. */
  function Filter<T>(s: seq<T>, p: T -> bool): (r: seq<T>)
    ensures |r| == CountWhere(s, p)
    ensures forall i :: 0 <= i < |r| ==> p(r[i])
    ensures forall i :: 0 <= i < |r| ==> r[i] in s
    ensures forall i :: 0 <= i < |s| && p(s[i]) ==> s[i] in r
    ensures IsSubsequence(r, s)
  {
    if s == [] then []
    else if p(s[0]) then
      var rest := Filter(s[1..], p);
      assert ([s[0]] + rest)[1..] == rest;
      [s[0]] + rest
    else Filter(s[1..], p)
  }

  /** Filtering a concatenation filters each part. */
  lemma {:induction false} FilterAppend<T>(a: seq<T>, b: seq<T>, p: T -> bool)
    ensures Filter(a + b, p) == Filter(a, p) + Filter(b, p)
  {
    if a == [] {
      assert a + b == b;
    } else {
      assert (a + b)[0] == a[0];
      assert (a + b)[1..] == a[1..] + b;
      FilterAppend(a[1..], b, p);
    }
  }

  /** The index of the first element of `s` from `from` on that satisfies `p`, or -1. */
  function IndexWhereFrom<T>(s: seq<T>, p: T -> bool, from: nat): (k: int)
    requires from <= |s|
    ensures k == -1 <==> forall i :: from <= i < |s| ==> !p(s[i])
    ensures k != -1 ==> from <= k < |s| && p(s[k]) && forall j :: from <= j < k ==> !p(s[j])
    decreases |s| - from
  {
    if from == |s| then -1
    else if p(s[from]) then from
    else IndexWhereFrom(s, p, from + 1)
  }

  /** Kotlin's `firstOrNull { p(it) }`. */
  function FirstWhere<T>(s: seq<T>, p: T -> bool): (r: Option<T>)
    ensures r.None? <==> forall i :: 0 <= i < |s| ==> !p(s[i])
    ensures r.Some? ==> exists k :: 0 <= k < |s| && s[k] == r.value && p(s[k]) && IsFirstWhere(s, p, k)
  {
    var k := IndexWhereFrom(s, p, 0);
    if k == -1 then None
    else
      assert IsFirstWhere(s, p, k);
      Some(s[k])
  }

  /** No element before index `k` satisfies `p`. */
  ghost predicate IsFirstWhere<T>(s: seq<T>, p: T -> bool, k: int)
    requires 0 <= k <= |s|
  {
    forall j :: 0 <= j < k ==> !p(s[j])
  }

  /** Kotlin's `indexOf(x)`: the first index holding `x`, or -1. */
  function IndexOf<T(==)>(s: seq<T>, x: T): (k: int)
    ensures k == -1 <==> x !in s
    ensures k != -1 ==> 0 <= k < |s| && s[k] == x && x !in s[..k]
  {
    if s == [] then -1
    else if s[0] == x then 0
    else
      var k := IndexOf(s[1..], x);
      assert s == [s[0]] + s[1..];
      if k == -1 then -1
      else
        assert s[..k + 1] == [s[0]] + s[1..][..k];
        k + 1
  }

  /** Kotlin's `list - element`: drops the first element equal to `x`, if there is one. */
  function RemoveFirst<T(==)>(s: seq<T>, x: T): (r: seq<T>)
    ensures x !in s ==> r == s
    ensures x in s ==> exists k :: 0 <= k < |s| && s[k] == x && x !in s[..k] && r == s[..k] + s[k + 1..]
    ensures x in s ==> |r| == |s| - 1
    ensures multiset(r) == multiset(s) - multiset{x}
    ensures IsSubsequence(r, s)
  {
    var k := IndexOf(s, x);
    if k == -1 then
      SelfIsSubsequence(s);
      s
    else
      assert s == s[..k] + [x] + s[k + 1..];
      assert multiset(s) == multiset(s[..k]) + multiset{x} + multiset(s[k + 1..]);
      SkipOneIsSubsequence(s, k);
      s[..k] + s[k + 1..]
  }

  lemma {:induction false} SelfIsSubsequence<T>(s: seq<T>)
    ensures IsSubsequence(s, s)
  {
    if s != [] {
      SelfIsSubsequence(s[1..]);
    }
  }

  /** Leaving out one element gives a subsequence. */
  lemma {:induction false} SkipOneIsSubsequence<T>(s: seq<T>, k: nat)
    requires k < |s|
    ensures IsSubsequence(s[..k] + s[k + 1..], s)
  {
    if k == 0 {
      assert s[..0] + s[1..] == s[1..];
      SelfIsSubsequence(s[1..]);
    } else {
      SkipOneIsSubsequence(s[1..], k - 1);
      var t := s[..k] + s[k + 1..];
      assert t[0] == s[0];
      assert t[1..] == s[1..][..k - 1] + s[1..][k..];
    }
  }
}

=== FILE: meeting_screen.dfy ===
/** TutorMeetingScreen: a tutor's own slot list, with add and delete. Each edit is written to
    the repository first; the local copy changes only if that write did not throw. */
module MeetingScreen {
  import opened Wrappers
  import opened Models
  import Lists
  import Calendar = CalendarRepository

  datatype MeetingScreen = MeetingScreen(
    availability: Option<TutorAvailability>,
    isLoading: bool,
    errorMessage: Option<string>,
    showDialog: bool)

  const Initial := MeetingScreen(None, true, None, false)

  /** The store and the screen together. */
  datatype Meeting = Meeting(store: Calendar.AvailabilityStore, screen: MeetingScreen)

  /** The load effect: the tutor's existing availability if there is one, otherwise a newly
      created empty one. An exception leaves the store and records its message. */
  function Load(m: Meeting, uid: string, thrown: Option<Exception>): (r: Meeting)
    ensures !r.screen.isLoading && r.screen.showDialog == m.screen.showDialog
    ensures thrown.Some? ==> r.store == m.store && r.screen.availability == m.screen.availability
                             && r.screen.errorMessage == thrown.value.message
    ensures thrown.None? && uid in m.store ==>
      r.store == m.store && r.screen.availability == Some(m.store[uid]) && r.screen.errorMessage.None?
    ensures thrown.None? && uid !in m.store ==>
      && r.screen.availability == Some(TutorAvailability(uid, []))
      && r.store == Calendar.CreateDefaultAvailability(m.store, uid).store
      && r.screen.errorMessage.None?
  {
    if thrown.Some? then
      Meeting(m.store, m.screen.(isLoading := false, errorMessage := thrown.value.message))
    else
      match Calendar.GetTutorAvailability(m.store, uid)
      case Some(a) => Meeting(m.store, m.screen.(availability := Some(a), isLoading := false, errorMessage := None))
      case None =>
        var c := Calendar.CreateDefaultAvailability(m.store, uid);
        Meeting(c.store, m.screen.(availability := Some(c.availability), isLoading := false, errorMessage := None))
  }

  /** The dialog's confirm handler: appends `TimeSlot(start, end)` to the list, without comparing
      `start` and `end`. With no availability loaded, `!!` throws a NullPointerException whose
      null message clears the error. A thrown write keeps the list and leaves the dialog open. */
  function AddSlot(m: Meeting, uid: string, start: Timestamp, end: Timestamp, thrown: Option<Exception>): (r: Meeting)
    ensures m.screen.availability.None? ==> r == Meeting(m.store, m.screen.(errorMessage := None))
    ensures m.screen.availability.Some? && thrown.Some? ==>
      r == Meeting(m.store, m.screen.(errorMessage := thrown.value.message))
    ensures m.screen.availability.Some? && thrown.None? ==>
      var old_ := m.screen.availability.value.timeSlots;
      && r.screen.availability.Some?
      && r.screen.availability.value.tutorId == m.screen.availability.value.tutorId
      && |r.screen.availability.value.timeSlots| == |old_| + 1
      && r.screen.availability.value.timeSlots[..|old_|] == old_
      && r.screen.availability.value.timeSlots[|old_|] == NewSlot(start, end)
      && r.store == Calendar.UpdateTimeSlots(m.store, uid, r.screen.availability.value.timeSlots)
      && !r.screen.showDialog
      && r.screen.errorMessage == m.screen.errorMessage
  {
    match m.screen.availability
    case None => Meeting(m.store, m.screen.(errorMessage := None))
    case Some(a) =>
      if thrown.Some? then Meeting(m.store, m.screen.(errorMessage := thrown.value.message))
      else
        var updated := a.timeSlots + [NewSlot(start, end)];
        Meeting(Calendar.UpdateTimeSlots(m.store, uid, updated),
                m.screen.(availability := Some(a.(timeSlots := updated)), showDialog := false))
  }

  /** The delete button of a listed slot: drops the first slot equal to it, booked or not. The
      screen only renders this button once an availability is loaded. */
  function DeleteSlot(m: Meeting, uid: string, slot: TimeSlot, thrown: Option<Exception>): (r: Meeting)
    requires m.screen.availability.Some?
    ensures thrown.Some? ==> r == Meeting(m.store, m.screen.(errorMessage := thrown.value.message))
    ensures thrown.None? ==>
      var old_ := m.screen.availability.value.timeSlots;
      && r.screen.availability.Some?
      && r.screen.availability.value.tutorId == m.screen.availability.value.tutorId
      && r.screen.availability.value.timeSlots == Lists.RemoveFirst(old_, slot)
      && r.store == Calendar.UpdateTimeSlots(m.store, uid, r.screen.availability.value.timeSlots)
      && r.screen.showDialog == m.screen.showDialog
      && r.screen.errorMessage == m.screen.errorMessage
  {
    var a := m.screen.availability.value;
    if thrown.Some? then Meeting(m.store, m.screen.(errorMessage := thrown.value.message))
    else
      var updated := Lists.RemoveFirst(a.timeSlots, slot);
      Meeting(Calendar.UpdateTimeSlots(m.store, uid, updated), m.screen.(availability := Some(a.(timeSlots := updated))))
  }

  /** Deleting a listed slot removes exactly one copy of it, whether or not a student has booked
      it, and keeps the other slots in order. */
  lemma DeleteIgnoresBooking(m: Meeting, uid: string, slot: TimeSlot)
    requires m.screen.availability.Some? && slot in m.screen.availability.value.timeSlots
    ensures var before := m.screen.availability.value.timeSlots;
      var after := DeleteSlot(m, uid, slot, None).screen.availability.value.timeSlots;
      && |after| == |before| - 1
      && multiset(after) == multiset(before) - multiset{slot}
      && Lists.IsSubsequence(after, before)
  {
  }

  /** A slot whose end is not after its start is still added: the screen makes no such check. */
  lemma AddSlotAcceptsAnyWindow(m: Meeting, uid: string, start: Timestamp, end: Timestamp)
    requires m.screen.availability.Some? && end <= start
    ensures NewSlot(start, end) in AddSlot(m, uid, start, end, None).screen.availability.value.timeSlots
  {
    var n := |m.screen.availability.value.timeSlots|;
    assert AddSlot(m, uid, start, end, None).screen.availability.value.timeSlots[n] == NewSlot(start, end);
  }

  /** Once loaded without error, the screen holds exactly what the store then has for the tutor. */
  lemma LoadAgreesWithStore(m: Meeting, uid: string)
    requires Calendar.WellKeyed(m.store)
    ensures var r := Load(m, uid, None);
      && uid in r.store && r.screen.availability == Some(r.store[uid])
      && r.store[uid].tutorId == uid
      && Calendar.WellKeyed(r.store)
  {
  }
}

=== FILE: models.dfy ===
/** The app's records, one datatype per Kotlin data class, with the string constants the code
    compares its free-form `role` and `status` fields against. */
module Models {
  import opened Wrappers

  /** A Firestore `Timestamp`; the code only ever compares two of them for equality. */
  type Timestamp = int

  /** A bookable window of a tutor. The screens call the flag `available` and the data class
      declares it as `isAvailable`; both are this one field. */
  datatype TimeSlot = TimeSlot(start: Timestamp, end: Timestamp, available: bool, studentId: string)

  /** `TimeSlot(start = start, end = end)`: the other fields take their declared defaults. */
  function NewSlot(start: Timestamp, end: Timestamp): (t: TimeSlot)
    ensures t.start == start && t.end == end && t.available && t.studentId == ""
  {
    TimeSlot(start, end, true, "")
  }

  datatype TutorAvailability = TutorAvailability(tutorId: string, timeSlots: seq<TimeSlot>)

  datatype Enrollment = Enrollment(
    id: string,
    courseId: string,
    studentId: string,
    status: string,
    completedLessons: seq<string>)

  datatype UserProfile = UserProfile(
    id: string,
    email: string,
    displayName: string,
    bio: string,
    photoUrl: string,
    role: string,
    approved: bool,
    rejected: bool)

  datatype Course = Course(
    id: string,
    title: string,
    description: string,
    tutorId: string,
    category: Option<string>)

  /** One resource page of a lesson: its text and the download URL of an attached file. */
  datatype LessonPage = LessonPage(text: string, imageUrl: Option<string>)

  /** `LessonPage()`: an empty page with no file. */
  const EmptyPage := LessonPage("", None)

  datatype Lesson = Lesson(
    id: string,
    courseId: string,
    title: string,
    content: string,
    completed: bool,
    pages: seq<LessonPage>)

  /** A thrown exception; Kotlin's `message` may be null. */
  datatype Exception = Exception(message: Option<string>)

  /** The message as Kotlin string interpolation renders it: a null message prints as "null". */
  function Rendered(e: Exception): string
  {
    e.message.GetOr("null")
  }

  const TutorRole := "Tutor"
  const StudentRole := "Student"

  const Pending := "pending"
  const Accepted := "accepted"
  const Rejected := "rejected"

  /** The id the screens use in a route to mean "create a new record". */
  const NewId := "new"

  /** Predicates the queries filter on, defined once so every use denotes the same function. */
  function OfCourse(courseId: string): Enrollment -> bool
  {
    (e: Enrollment) => e.courseId == courseId
  }

  /** The course ids a list of enrollments mentions. */
  ghost function MentionedCourses(es: seq<Enrollment>): set<string>
  {
    set i | 0 <= i < |es| :: es[i].courseId
  }

  function OfStudent(studentId: string): Enrollment -> bool
  {
    (e: Enrollment) => e.studentId == studentId
  }
}

=== FILE: text.dfy ===
/** The Kotlin standard-library string functions the screens call, over `seq<char>`. */
module Text {

  /** Kotlin's `Char.isWhitespace()` on the JVM: Java's `Character.isWhitespace` or
      `Character.isSpaceChar`, written out as the code points those two accept. */
  predicate IsWhitespace(c: char)
  {
    var n := c as int;
    || 0x09 <= n <= 0x0D
    || 0x1C <= n <= 0x20
    || n == 0xA0 || n == 0x1680
    || 0x2000 <= n <= 0x200A
    || n == 0x2028 || n == 0x2029 || n == 0x202F || n == 0x205F || n == 0x3000
  }

  /** Kotlin's `isBlank()`: empty or whitespace only. */
  predicate IsBlank(s: string)
  {
    forall i :: 0 <= i < |s| ==> IsWhitespace(s[i])
  }

  /** Upper-casing of the ASCII letters; every other character is left as it is. */
  function UpperAscii(c: char): (u: char)
    ensures 'a' <= c <= 'z' ==> 'A' <= u <= 'Z' && u as int == c as int - 32
    ensures !('a' <= c <= 'z') ==> u == c
  {
    if 'a' <= c <= 'z' then (c as int - 32) as char else c
  }

  /** Kotlin's `Char.equals(other, ignoreCase = true)`, with case mapping limited to ASCII. */
  predicate EqualsIgnoreCase(a: char, b: char)
  {
    a == b || UpperAscii(a) == UpperAscii(b)
  }

  /** `query` occurs in `text` at `offset`, ignoring case. */
  predicate RegionMatchesIgnoreCase(text: string, offset: int, query: string)
  {
    && 0 <= offset && offset + |query| <= |text|
    && forall j :: 0 <= j < |query| ==> EqualsIgnoreCase(text[offset + j], query[j])
  }

  /** Kotlin's `text.contains(query, ignoreCase = true)`. */
  predicate ContainsIgnoreCase(text: string, query: string)
  {
    exists offset | 0 <= offset <= |text| - |query| :: RegionMatchesIgnoreCase(text, offset, query)
  }

  /** Kotlin's `lastIndexOf(c)`: the last index holding `c`, or -1. */
  function LastIndexOf(s: string, c: char): (k: int)
    ensures k == -1 <==> c !in s
    ensures k != -1 ==> 0 <= k < |s| && s[k] == c && c !in s[k + 1..]
  {
    if s == [] then -1
    else if s[|s| - 1] == c then |s| - 1
    else
      assert s == s[..|s| - 1] + [s[|s| - 1]];
      var k := LastIndexOf(s[..|s| - 1], c);
      if k != -1 then
        assert s[k + 1..] == s[..|s| - 1][k + 1..] + [s[|s| - 1]];
        k
      else k
  }

  /** Kotlin's `substringAfterLast(delimiter)` with the default missing-delimiter value:
      the whole string when `c` does not occur. */
  function SubstringAfterLast(s: string, c: char): (r: string)
    ensures c !in r
    ensures c !in s ==> r == s
    ensures c in s ==> exists head :: s == head + [c] + r
  {
    var k := LastIndexOf(s, c);
    if k == -1 then s
    else
      assert s == s[..k] + [c] + s[k + 1..];
      s[k + 1..]
  }

  /** Kotlin's `substringBeforeLast(delimiter)` with the default missing-delimiter value. */
  function SubstringBeforeLast(s: string, c: char): (r: string)
    ensures c !in s ==> r == s
    ensures c in s ==> exists tail :: c !in tail && s == r + [c] + tail
  {
    var k := LastIndexOf(s, c);
    if k == -1 then s
    else
      assert s == s[..k] + [c] + s[k + 1..];
      s[..k]
  }
}

=== FILE: user_repository.dfy ===
/** UserRepository: the `users` collection, keyed by the authentication uid, and the approval
    flags that gate students. */
module UserRepository {
  import opened Wrappers
  import opened Models
  import Lists

  type UserStore = map<string, UserProfile>

  /** The message of the exception `document("")` raises: an empty id leaves the collection's
      one-segment path, which names no document. Every read or write of a profile under an empty
      uid throws it before reaching the store. */
  const EmptyDocumentPath := "Invalid document reference. Document references must have an even number of segments, but users has 1"

  /** `createUserProfile`: writes (or overwrites) the profile under `uid`; tutors start
      approved, everyone else unapproved, and nobody starts rejected. An empty `uid` throws. */
  function CreateUserProfile(store: UserStore, uid: string, email: string, role: string): (r: Result<UserStore>)
    ensures r.Err? <==> uid == ""
    ensures r.Err? ==> r.message == EmptyDocumentPath
    ensures r.Ok? ==> r.value.Keys == store.Keys + {uid}
    ensures r.Ok? ==> r.value[uid].id == uid && r.value[uid].email == email && r.value[uid].role == role
    ensures r.Ok? ==> (r.value[uid].approved <==> role == TutorRole) && !r.value[uid].rejected
    ensures r.Ok? ==> r.value[uid].displayName == "" && r.value[uid].bio == "" && r.value[uid].photoUrl == ""
    ensures r.Ok? ==> forall other :: other in store && other != uid ==> r.value[other] == store[other]
  {
    if uid == "" then Err(EmptyDocumentPath)
    else Ok(store[uid := UserProfile(uid, email, "", "", "", role, role == TutorRole, false)])
  }

  /** `getUserProfile`: the stored profile; an empty uid throws at `document("")`, and an absent
      uid throws once the snapshot turns out empty. */
  function GetUserProfile(store: UserStore, uid: string): (r: Result<UserProfile>)
    ensures r.Err? <==> uid == "" || uid !in store
    ensures r.Ok? ==> r.value == store[uid]
    ensures uid == "" ==> r.Err? && r.message == EmptyDocumentPath
    ensures uid != "" && uid !in store ==> r.Err? && r.message == "UserProfile " + uid + " not found"
  {
    if uid == "" then Err(EmptyDocumentPath)
    else if uid in store then Ok(store[uid])
    else Err("UserProfile " + uid + " not found")
  }

  /** The three equality filters of `getPendingUsers`. */
  predicate IsPendingStudent(u: UserProfile)
  {
    u.role == StudentRole && !u.approved && !u.rejected
  }

  /** The three equality filters of `getAllTutors`. */
  predicate IsListedTutor(u: UserProfile)
  {
    u.role == TutorRole && u.approved && !u.rejected
  }

  function PendingFilter(): UserProfile -> bool
  {
    (u: UserProfile) => IsPendingStudent(u)
  }

  function TutorFilter(): UserProfile -> bool
  {
    (u: UserProfile) => IsListedTutor(u)
  }

  /** `getPendingUsers` over a snapshot of the collection. */
  function PendingUsers(docs: seq<UserProfile>): (r: seq<UserProfile>)
    ensures forall i :: 0 <= i < |r| ==> IsPendingStudent(r[i]) && r[i] in docs
    ensures forall i :: 0 <= i < |docs| && IsPendingStudent(docs[i]) ==> docs[i] in r
    ensures Lists.IsSubsequence(r, docs)
    ensures |r| == Lists.CountWhere(docs, PendingFilter())
  {
    Lists.Filter(docs, PendingFilter())
  }

  /** `getAllTutors` over a snapshot of the collection. */
  function AllTutors(docs: seq<UserProfile>): (r: seq<UserProfile>)
    ensures forall i :: 0 <= i < |r| ==> IsListedTutor(r[i]) && r[i] in docs
    ensures forall i :: 0 <= i < |docs| && IsListedTutor(docs[i]) ==> docs[i] in r
    ensures Lists.IsSubsequence(r, docs)
    ensures |r| == Lists.CountWhere(docs, TutorFilter())
  {
    Lists.Filter(docs, TutorFilter())
  }

  /** The error a field update on a missing document raises. */
  const NotFound := "NOT_FOUND: No document to update"

  /** `approveUser`: sets `approved` and nothing else. */
  function ApproveUser(store: UserStore, uid: string): (r: Result<UserStore>)
    ensures r.Err? <==> uid !in store
    ensures r.Ok? ==> r.value.Keys == store.Keys && r.value[uid] == store[uid].(approved := true)
    ensures r.Ok? ==> forall other :: other in store && other != uid ==> r.value[other] == store[other]
    ensures r.Ok? ==> !IsPendingStudent(r.value[uid])
  {
    if uid !in store then Err(NotFound)
    else Ok(store[uid := store[uid].(approved := true)])
  }

  /** `rejectUser`: sets `rejected` and nothing else; `approved` keeps its value. */
  function RejectUser(store: UserStore, uid: string): (r: Result<UserStore>)
    ensures r.Err? <==> uid !in store
    ensures r.Ok? ==> r.value.Keys == store.Keys && r.value[uid] == store[uid].(rejected := true)
    ensures r.Ok? ==> r.value[uid].approved == store[uid].approved
    ensures r.Ok? ==> forall other :: other in store && other != uid ==> r.value[other] == store[other]
    ensures r.Ok? ==> !IsPendingStudent(r.value[uid]) && !IsListedTutor(r.value[uid])
  {
    if uid !in store then Err(NotFound)
    else Ok(store[uid := store[uid].(rejected := true)])
  }

  /** A new student waits in the pending list, and a new tutor is listed at once. */
  lemma NewProfileListing(store: UserStore, uid: string, email: string, role: string)
    requires uid != ""
    ensures var u := CreateUserProfile(store, uid, email, role).value[uid];
      && (IsPendingStudent(u) <==> role == StudentRole)
      && (IsListedTutor(u) <==> role == TutorRole)
  {
  }

  /** The pending list and the tutor list never share a profile. */
  lemma PendingAndTutorDisjoint(docs: seq<UserProfile>)
    ensures forall i :: 0 <= i < |PendingUsers(docs)| ==> PendingUsers(docs)[i] !in AllTutors(docs)
  {
  }
}

=== FILE: views.dfy ===
/** The `when { isLoading -> …; error != null -> …; list.isEmpty() -> …; else -> … }` cascade
    the list screens share. */
module Views {
  import opened Wrappers

  /** What a list screen shows. */
  datatype Screen<T> = Loading | Failed(message: string) | Empty | Items(items: seq<T>)

  /** Loading wins over an error, an error over an empty list, and only a non-empty list is
      shown as a list. */
  function Present<T>(isLoading: bool, error: Option<string>, items: seq<T>): (v: Screen<T>)
    ensures v.Loading? <==> isLoading
    ensures v.Failed? <==> !isLoading && error.Some?
    ensures v.Failed? ==> v.message == error.value
    ensures v.Empty? <==> !isLoading && error.None? && |items| == 0
    ensures v.Items? <==> !isLoading && error.None? && |items| > 0
    ensures v.Items? ==> v.items == items
  {
    if isLoading then Loading
    else if error.Some? then Failed(error.value)
    else if |items| == 0 then Empty
    else Items(items)
  }
}

=== FILE: wrappers.dfy ===
/** Nullable values and failing calls, the two ways the app's code reports absence or error. */
module Wrappers {

  /** A Kotlin nullable value: `None` stands for `null`. */
  datatype Option<+T> = None | Some(value: T) {

    /** The value, or `default` when absent (Kotlin's `?:`). */
    function GetOr(default: T): T
    {
      match this
      case Some(v) => v
      case None => default
    }
  }

  /** The outcome of a call that may throw: `Err` carries the exception's message. */
  datatype Result<+T> = Ok(value: T) | Err(message: string) {

    /** Kotlin's `runCatching { … }.getOrNull()`. */
    function ToOption(): Option<T>
    {
      match this
      case Ok(v) => Some(v)
      case Err(_) => None
    }
  }
}
